=== FILE: README.md ===
# EmailLogCleanup, modelled in Dafny

EmailLogCleanup is a scheduled function that keeps two MySQL tables small:

- `mail_log`: one parent row per e-mail sent.
- `sendgrid_event`: the delivery events of each e-mail, linked to it by `guid`.

The repository has two handlers:

- **`org.vm.email.cleanup.Clean.handleRequest`**: archive-then-delete.
  1. From the `OFFSET` environment variable it computes a cutoff: midnight, a given number of days ago.
  2. It selects the oldest `EMAILNUM` mail rows before the cutoff whose type is not `custom_email_to_volunteer`.
  3. It writes each selected row, joined with each of its events, as a CSV line under a fixed 28-column header.
  4. It uploads the file to an object-store bucket.
  5. Only then does it delete the selected rows (events first, then mail), using one spliced `IN ('g1','g2',…)` list.
  6. It also deletes every expired `custom_email_to_volunteer` row together with its events.
  7. It returns `SUCCESS: <n> rows deleted from sendgrid_event table and <m> rows deleted from mail_log table. Deleted information has been recorded in <bucket> in file <name>.csv`.
  8. A caught exception makes it return `ERROR: Database connection error or parsing error`.
- **`emailcleanup.Clean.handleRequest`**: the legacy sweep. It deletes every event and every mail row older than the cutoff, with no archive, and returns the two counts.

The shared `CSVWriter` is modelled as an append-only text buffer:

- Its constructor writes the header.
- `writeString`, `addComma` and `newLine` append.
- `CleanCSVWriter.writeToFile` appends one row.

The modules follow the program:

| module | file | what it holds |
|---|---|---|
| `Wrappers` | wrappers.dfy | `Option`, `Result` |
| `Seqs` | seqs.dfy | order-keeping filter, concatenation |
| `Text` | text.dfy | `String.join` and its inverse split |
| `JavaInt` | java_int.dfy | `Integer.parseInt` and `Integer.toString` on 32-bit values |
| `Timestamps` | timestamps.dfy | `convertToTimestamp` |
| `CsvWriter` | csv_writer.dfy | the buffer, the header, `writeToFile`, the inline row of `Clean` |
| `EmailDb` | email_db.dfy | the tables; the select, join and delete queries as pure functions; how the database reads the spliced `IN` text |
| `Execution` | execution.dfy | the effect trace; the run state; fault injection; the returned strings and how to read the counts back |
| `ArchiveClean` | archive_clean.dfy | `org.vm.email.cleanup.Clean` |
| `LegacyClean` | legacy_clean.dfy | `emailcleanup.Clean` |

How the model treats the outside world:

- **Database, file system and object store.** A run records every statement, file operation and upload, in order, as a trace of `Effect`s. The tables are values that the delete statements rewrite.
- **Exceptions the `catch` clause takes.** `ClassNotFoundException`, `SQLException`, `ParseException` and `IOException` are injected by `failAt: Option<nat>`, which names the trace position of the operation that throws.
- **Environment variables** are `Option<string>` parameters. A missing value is `None`, and concatenating it prints `null`.
- **The clock** is a parameter `now`, in seconds in one fixed zone.
- **`tsToString`** is a parameter `tsToString: int -> string`.

Where the code departs from what its own comments promise, the model follows the code. The Javadoc of `handleRequest` says it deletes the entries logged before the cutoff (EmailLogCleanup/src/main/java/org/vm/email/cleanup/Clean.java lines 20-24). The comments say the loop adds each e-mail's information to the CSV file (line 70) and that the deletes remove the recorded logs (line 133). The departures:

- A selected mail row with no events produces no CSV line, yet it is deleted (`ArchiveClean.ParentWithoutEventsDeletedUnrecorded`). There is no placeholder row for it.
- The `IN` text of an empty batch is `('')`. That text deletes the rows whose guid is the empty string, and the main deletes are not skipped for an empty batch (`ArchiveClean.EmptyBatchDeletesEmptyGuids`).
- A malformed or missing `OFFSET` or `EMAILNUM` makes `Integer.parseInt` throw `NumberFormatException`. No `catch` clause takes it, so the handler throws rather than returning the `ERROR:` string (outcome `Thrown`).
- A negative `EMAILNUM` is passed to `LIMIT ?`, which MySQL rejects. The SQL error is caught and nothing is deleted.
- No field is quoted or escaped in the CSV. A field holding a comma or a newline breaks the row's read-back (`Text.DelimiterInFieldBreaksSplit`).

## Model

| member | source | states |
|---|---|---|
| Timestamps.StartOfDay | EmailLogCleanup/src/main/java/org/vm/email/cleanup/Clean.java:210-213 | the midnight that begins the day containing the instant, which is what formatting as `yyyy-MM-dd` and parsing back yields for dates in year 1 or later |
| Timestamps.NegateInt32 | EmailLogCleanup/src/main/java/org/vm/email/cleanup/Clean.java:206-208 | `-offDays` on a Java `int`: the additive inverse, except that `Integer.MIN_VALUE` negates to itself |
| Timestamps.ConvertToTimestamp | EmailLogCleanup/src/main/java/org/vm/email/cleanup/Clean.java:205-215 | defined exactly when the offset parses; a midnight; the start of the day `offDays` whole days before now, and for `Integer.MIN_VALUE`, whose negation is itself, the start of the day 2^31 days before now |
| Timestamps.DayBoundaryUnique | EmailLogCleanup/src/main/java/org/vm/email/cleanup/Clean.java:210-213 | a day has only one midnight at or before each of its instants |
| Timestamps.StartOfDayIsLatestMidnight | EmailLogCleanup/src/main/java/org/vm/email/cleanup/Clean.java:210-213 | the truncation is the latest midnight not after the instant |
| Timestamps.StartOfDayShift | EmailLogCleanup/src/main/java/org/vm/email/cleanup/Clean.java:207-213 | moving the instant by whole days moves its midnight by the same days |
| Timestamps.SameDaySameCutoff | EmailLogCleanup/src/main/java/emailcleanup/Clean.java:108-118 | two runs on the same calendar day compute the same cutoff |
| Timestamps.CutoffMonotonic | EmailLogCleanup/src/main/java/emailcleanup/Clean.java:108-118 | a later run never computes an earlier cutoff |
| JavaInt.ParseInt | EmailLogCleanup/src/main/java/org/vm/email/cleanup/Clean.java:36-37 | `Integer.parseInt` yields a 32-bit value, only for a non-empty, optionally signed run of digits |
| JavaInt.DigitsValueLeadingZero | EmailLogCleanup/src/main/java/org/vm/email/cleanup/Clean.java:36-37 | a leading zero does not change the value of a digit run |
| JavaInt.ParseIntPlus | EmailLogCleanup/src/main/java/org/vm/email/cleanup/Clean.java:36-37 | a `+` sign parses to the same result as the bare digits |
| JavaInt.ParseIntMinus | EmailLogCleanup/src/main/java/org/vm/email/cleanup/Clean.java:36-37 | a `-` sign negates the value of digits that parse, so `-0` is 0 |
| JavaInt.ParseIntLeadingZero | EmailLogCleanup/src/main/java/org/vm/email/cleanup/Clean.java:36-37 | a leading zero after the optional sign parses to the same result; with the sign lemmas and the round trip this fixes the value of every accepted text |
| JavaInt.ParseIntDigits | EmailLogCleanup/src/main/java/org/vm/email/cleanup/Clean.java:36-37 | an optional sign followed by decimal digits is accepted exactly when its value fits in 32 bits, and then parses to that value; an out-of-range text such as `3000000000` is a `NumberFormatException` |
| JavaInt.ParseIntToString | EmailLogCleanup/src/main/java/org/vm/email/cleanup/Clean.java:36-37 | parsing the decimal text of any 32-bit value gives the value back |
| JavaInt.IntToString | EmailLogCleanup/src/main/java/org/vm/email/cleanup/Clean.java:78 | `Integer.toString`: a `-` before the digits of a negative value; `JavaInt.ParseIntToString` parses it back to the value |
| JavaInt.NatToString | EmailLogCleanup/src/main/java/org/vm/email/cleanup/Clean.java:187-189 | the decimal text of a count is a non-empty digit string whose value is the count |
| Text.Join | EmailLogCleanup/src/main/java/org/vm/email/cleanup/Clean.java:114-116 | `String.join`: the fields with the separator between neighbours; `Text.SplitJoin` and `Text.JoinSplit` are its inverse laws |
| Text.Split | EmailLogCleanup/src/main/java/org/vm/email/cleanup/Clean.java:114-116 | splitting at a delimiter yields at least one field, none containing the delimiter |
| Text.SplitJoin | EmailLogCleanup/src/main/java/org/vm/email/cleanup/Clean.java:114-116 | `String.join` of delimiter-free fields splits back into exactly those fields |
| Text.JoinSplit | EmailLogCleanup/src/main/java/org/vm/email/cleanup/Clean.java:114-116 | joining the fields of any split gives the text back |
| Text.JoinAppend | EmailLogCleanup/src/main/java/org/vm/email/cleanup/Clean.java:114-116 | joining two non-empty lists equals joining each, with the separator between |
| Text.DelimiterInFieldBreaksSplit | EmailLogCleanup/src/main/java/org/vm/email/cleanup/Clean.java:114-116 | an unescaped field holding the delimiter does not read back as the fields written |
| Seqs.FilterPartition | EmailLogCleanup/src/main/java/emailcleanup/Clean.java:73-81 | a filter and its complement together account for every row |
| CsvWriter.WriteString | EmailLogCleanup/src/main/java/org/vm/shared/CSVWriter.java:23-29 | the buffer keeps what it held and gains exactly the given text |
| CsvWriter.AddComma | EmailLogCleanup/src/main/java/org/vm/shared/CSVWriter.java:31-37 | the buffer keeps what it held and gains exactly one comma |
| CsvWriter.NewLine | EmailLogCleanup/src/main/java/org/vm/shared/CSVWriter.java:39-45 | the buffer keeps what it held and gains exactly one newline |
| CsvWriter.PerformAll | EmailLogCleanup/src/main/java/org/vm/shared/CSVWriter.java:23-45 | any sequence of appends only extends the buffer |
| CsvWriter.PerformAllAppends | EmailLogCleanup/src/main/java/org/vm/shared/CSVWriter.java:23-45 | a sequence of appends adds the concatenation of their texts, in order |
| CsvWriter.HeaderPiecesText | EmailLogCleanup/src/main/java/org/vm/email/cleanup/CleanCSVWriter.java:35-90 | appending the columns with a comma between each and a final newline writes the joined columns and a newline |
| CsvWriter.WriteCSVHeader | EmailLogCleanup/src/main/java/org/vm/email/cleanup/CleanCSVWriter.java:33-94 | the header appends extend the buffer by exactly the header line |
| CsvWriter.NewCleanCsvWriter | EmailLogCleanup/src/main/java/org/vm/shared/CSVWriter.java:17-21 | a new writer's file holds exactly the header line before anything else is written |
| CsvWriter.HeaderShape | EmailLogCleanup/src/main/java/org/vm/email/cleanup/CleanCSVWriter.java:35-90 | the header has 28 columns, 8 `ml_` then 20 `se_`, ends in a newline, and splits back at commas into exactly those columns |
| CsvWriter.MailColumnsShape | EmailLogCleanup/src/main/java/org/vm/email/cleanup/CleanCSVWriter.java:35-50 | the mail part of the header has 8 comma-free `ml_` columns |
| CsvWriter.EventColumnsShape | EmailLogCleanup/src/main/java/org/vm/email/cleanup/CleanCSVWriter.java:51-90 | the event part of the header has 20 comma-free `se_` columns |
| CsvWriter.EventColumnsFree | EmailLogCleanup/src/main/java/org/vm/email/cleanup/CleanCSVWriter.java:51-90 | no event column name contains a comma |
| CsvWriter.WriteToFile | EmailLogCleanup/src/main/java/org/vm/email/cleanup/CleanCSVWriter.java:22-30 | appends one newline-terminated row that starts with the first list, adds a comma only before a non-empty second list, and splits back into both lists' fields |
| CsvWriter.RowPiecesText | EmailLogCleanup/src/main/java/org/vm/email/cleanup/CleanCSVWriter.java:22-30 | the row's text in both branches: with and without the second list |
| CsvWriter.RowText | EmailLogCleanup/src/main/java/org/vm/email/cleanup/CleanCSVWriter.java:22-30 | the appended row has the shape a CSV reader relies on |
| CsvWriter.ArchiveRow | EmailLogCleanup/src/main/java/org/vm/email/cleanup/Clean.java:114-117 | the text of the four inline appends for one pair; `CsvWriter.ArchiveRowText` and `CsvWriter.InlineRowIsWriteToFile` state what it is |
| CsvWriter.ArchiveRowText | EmailLogCleanup/src/main/java/org/vm/email/cleanup/Clean.java:114-117 | the four inline appends write the joined mail fields, a comma, the joined event fields, a newline |
| CsvWriter.InlineRowIsWriteToFile | EmailLogCleanup/src/main/java/org/vm/email/cleanup/Clean.java:114-117 | the inline appends write the same row as `writeToFile([mailInfo, eventInfo])` whenever there is an event |
| CsvWriter.ArchiveRowFields | EmailLogCleanup/src/main/java/org/vm/email/cleanup/Clean.java:76-117 | a row of 8 mail and 20 event comma-free fields splits back into those 28 fields, one per header column |
| EmailDb.MailInfo | EmailLogCleanup/src/main/java/org/vm/email/cleanup/Clean.java:77-85 | the eight mail strings, with the guid third and the type last |
| EmailDb.EventInfo | EmailLogCleanup/src/main/java/org/vm/email/cleanup/Clean.java:93-113 | the twenty event strings, beginning with the event id |
| EmailDb.Archivable | EmailLogCleanup/src/main/java/org/vm/email/cleanup/Clean.java:71 | the batch query's `WHERE`: older than the cutoff and not `custom_email_to_volunteer`; `EmailDb.ExpiredSplit` relates it to the special query |
| EmailDb.SpecialExpired | EmailLogCleanup/src/main/java/org/vm/email/cleanup/Clean.java:149-160 | the special query's `WHERE`: older than the cutoff and `custom_email_to_volunteer` |
| EmailDb.ExpiredSplit | EmailLogCleanup/src/main/java/org/vm/email/cleanup/Clean.java:71-160 | a row is older than the cutoff exactly when one of the two queries matches it, and never both match |
| EmailDb.InsertBySentTime | EmailLogCleanup/src/main/java/org/vm/email/cleanup/Clean.java:71 | inserting into a list sorted by `sent_time` keeps it sorted and adds exactly that row |
| EmailDb.SortBySentTime | EmailLogCleanup/src/main/java/org/vm/email/cleanup/Clean.java:71 | `ORDER BY sent_time ASC` yields a sorted permutation of its input |
| EmailDb.Candidates | EmailLogCleanup/src/main/java/org/vm/email/cleanup/Clean.java:71 | `WHERE sent_time < ? AND type != 'custom_email_to_volunteer' ORDER BY sent_time ASC`: sorted, and a reordering of exactly the matching rows, duplicates included |
| EmailDb.SelectOldest | EmailLogCleanup/src/main/java/org/vm/email/cleanup/Clean.java:71-75 | the oldest archivable rows, sorted, taken from the table: as many as the limit or as match, whichever is fewer, duplicate rows counted; when fewer than the limit match, exactly the matching rows with their multiplicities; none newer than a matching row left out |
| EmailDb.LimitCount | EmailLogCleanup/src/main/java/org/vm/email/cleanup/Clean.java:71-75 | `LIMIT` over the reordered matches returns the smaller of the limit and the number of matches, and all of them, duplicates included, when that is below the limit |
| EmailDb.CandidatesMembers | EmailLogCleanup/src/main/java/org/vm/email/cleanup/Clean.java:71 | the sorted candidates are exactly the rows before the cutoff that are not special, each at most once |
| EmailDb.SelectPrefixFacts | EmailLogCleanup/src/main/java/org/vm/email/cleanup/Clean.java:71-75 | a prefix of the sorted candidates is sorted, archivable, and no newer than any candidate it leaves out |
| EmailDb.PrefixFacts | EmailLogCleanup/src/main/java/org/vm/email/cleanup/Clean.java:71 | `LIMIT` keeps a sorted prefix no newer than the rest |
| EmailDb.FilterSubMultiset | EmailLogCleanup/src/main/java/org/vm/email/cleanup/Clean.java:71 | a `WHERE` clause returns each row at most as often as the table holds it |
| EmailDb.Guids | EmailLogCleanup/src/main/java/org/vm/email/cleanup/Clean.java:88-89 | `guidList` holds the guid of each selected row, in selection order |
| EmailDb.EventsOf | EmailLogCleanup/src/main/java/org/vm/email/cleanup/Clean.java:86-91 | the events whose guid equals the parent's, in table order |
| EmailDb.JoinPairs | EmailLogCleanup/src/main/java/org/vm/email/cleanup/Clean.java:76-120 | the pairs of the nested loops, parent by parent; `EmailDb.JoinPairsMembers` characterises it |
| EmailDb.PairWith | EmailLogCleanup/src/main/java/org/vm/email/cleanup/Clean.java:92-117 | one output pair per event of the parent, in event order |
| EmailDb.JoinPairsMembers | EmailLogCleanup/src/main/java/org/vm/email/cleanup/Clean.java:76-120 | a (mail, event) pair is written exactly when the mail was selected and the event carries its guid |
| EmailDb.ParentWithoutEventsHasNoPairs | EmailLogCleanup/src/main/java/org/vm/email/cleanup/Clean.java:86-118 | a selected parent without events contributes no pair |
| EmailDb.SqlInList | EmailLogCleanup/src/main/java/org/vm/email/cleanup/Clean.java:135-137 | `Collectors.joining("','", "('", "')")` of the guids; `EmailDb.SqlInListReadsBack` says how the database reads it |
| EmailDb.EventsNotIn | EmailLogCleanup/src/main/java/org/vm/email/cleanup/Clean.java:134-140 | the events a `DELETE ... WHERE guid IN` leaves: those whose guid is none of the literals |
| EmailDb.MailNotIn | EmailLogCleanup/src/main/java/org/vm/email/cleanup/Clean.java:142-145 | the mail a `DELETE ... WHERE guid IN` leaves |
| EmailDb.ReadLiteralSplits | EmailLogCleanup/src/main/java/org/vm/email/cleanup/Clean.java:135-138 | reading a quoted literal splits the text into a literal without quotes or backslashes, its closing quote, and the rest; it fails only on text holding a backslash or no quote |
| EmailDb.ReadLiteralPlain | EmailLogCleanup/src/main/java/org/vm/email/cleanup/Clean.java:135-138 | a guid without quotes or backslashes reads back as itself |
| EmailDb.ReadItemsLast | EmailLogCleanup/src/main/java/org/vm/email/cleanup/Clean.java:135-138 | a plain literal closed by `')` reads back as the one-element list |
| EmailDb.ReadItemsCons | EmailLogCleanup/src/main/java/org/vm/email/cleanup/Clean.java:135-138 | a plain literal followed by `,` and a readable list reads back as that literal in front of the list |
| EmailDb.ReadItemsJoin | EmailLogCleanup/src/main/java/org/vm/email/cleanup/Clean.java:135-138 | the joined literals read back as the list, or as the one empty literal for an empty list |
| EmailDb.SqlInListReadsBack | EmailLogCleanup/src/main/java/org/vm/email/cleanup/Clean.java:134-145 | the database reads the spliced `IN` text as the guid list; an empty list is read as `('')` |
| Execution.Attempt | EmailLogCleanup/src/main/java/org/vm/email/cleanup/Clean.java:190-192 | an operation either completes and is recorded, or throws a caught exception and changes nothing |
| Execution.NoDeletesCount | EmailLogCleanup/src/main/java/org/vm/email/cleanup/Clean.java:130-175 | a trace holds no delete exactly when it counts none |
| Execution.JavaString | EmailLogCleanup/src/main/java/org/vm/email/cleanup/Clean.java:35-55 | string concatenation of an environment value: `null` when the variable is unset, its text otherwise |
| Execution.DeleteSummary | EmailLogCleanup/src/main/java/org/vm/email/cleanup/Clean.java:187-188 | the shared head of the success string; `Execution.ReadDeleteSummaryBack` reads both counts back from it |
| Execution.Outcome.Text | EmailLogCleanup/src/main/java/org/vm/email/cleanup/Clean.java:187-192 | the string `handleRequest` returns: the summary and suffix on success, the fixed `ERROR:` text after a caught exception; `Execution.OutcomeTextReadsBack` tells them apart |
| Execution.LeadingDigits | EmailLogCleanup/src/main/java/org/vm/email/cleanup/Clean.java:187-189 | the longest run of digits at the head of a text |
| Execution.ReadCountBack | EmailLogCleanup/src/main/java/org/vm/email/cleanup/Clean.java:187-189 | a count printed after a fixed prefix and before a space reads back as that count |
| Execution.LeadingDigitsOfRun | EmailLogCleanup/src/main/java/org/vm/email/cleanup/Clean.java:187-189 | a digit run followed by a non-digit is exactly the leading digits |
| Execution.ReadDeleteSummaryBack | EmailLogCleanup/src/main/java/emailcleanup/Clean.java:92-93 | both counts of the `SUCCESS:` string read back, whatever follows them |
| Execution.ErrorIsNoSummary | EmailLogCleanup/src/main/java/org/vm/email/cleanup/Clean.java:190-192 | the `ERROR:` string carries no counts |
| Execution.OutcomeTextReadsBack | EmailLogCleanup/src/main/java/org/vm/email/cleanup/Clean.java:187-192 | the returned string of a success yields its counts; that of a caught exception yields none |
| ArchiveClean.ArchiveRows | EmailLogCleanup/src/main/java/org/vm/email/cleanup/Clean.java:76-120 | one CSV line per joined pair, and line `k` renders pair `k` of the join |
| ArchiveClean.ArchiveRowsAppend | EmailLogCleanup/src/main/java/org/vm/email/cleanup/Clean.java:76-120 | the lines of two joins written one after the other are the lines of their concatenation |
| ArchiveClean.ArchiveText | EmailLogCleanup/src/main/java/org/vm/email/cleanup/Clean.java:67-123 | the file: the header, then every line of the batch's join; `ArchiveClean.ArchiveParents` and `ArchiveClean.Archive` prove the loops write it |
| ArchiveClean.SpecialGuids | EmailLogCleanup/src/main/java/org/vm/email/cleanup/Clean.java:148-156 | `oppList`: the guids of the expired special mail, in table order; `ArchiveClean.SpecialGuidsMembers` characterises it |
| ArchiveClean.MailNotSpecialExpired | EmailLogCleanup/src/main/java/org/vm/email/cleanup/Clean.java:160-163 | the mail the special delete leaves |
| ArchiveClean.Purged | EmailLogCleanup/src/main/java/org/vm/email/cleanup/Clean.java:134-175 | the tables after all deletes as the SQL defines them; `ArchiveClean.PurgedMail` and `ArchiveClean.PurgedEvents` characterise it row by row |
| ArchiveClean.Batch | EmailLogCleanup/src/main/java/org/vm/email/cleanup/Clean.java:71-75 | the rows of the batch query; a negative limit returns none because the database rejects the statement |
| ArchiveClean.Literals | EmailLogCleanup/src/main/java/org/vm/email/cleanup/Clean.java:135-138 | the literals an `IN` text names hold every guid of the list and nothing else, except the empty guid for an empty list |
| ArchiveClean.Open | EmailLogCleanup/src/main/java/org/vm/email/cleanup/Clean.java:50-68 | connecting, creating the file and writing the header leave the tables alone and leave exactly the header in the file |
| ArchiveClean.AppendRow | EmailLogCleanup/src/main/java/org/vm/email/cleanup/Clean.java:114-117 | appending a pair's line adds exactly that line and touches no table |
| ArchiveClean.ReadOnlyTrans | EmailLogCleanup/src/main/java/org/vm/email/cleanup/Clean.java:55-123 | steps that only read or write the file compose into one such step |
| ArchiveClean.RowsOfParentSnoc | EmailLogCleanup/src/main/java/org/vm/email/cleanup/Clean.java:92-118 | one more event of the parent adds its line at the end |
| ArchiveClean.WriteRows | EmailLogCleanup/src/main/java/org/vm/email/cleanup/Clean.java:86-119 | the event loop of one parent appends one line per event, in order |
| ArchiveClean.JoinPairsAppend | EmailLogCleanup/src/main/java/org/vm/email/cleanup/Clean.java:76-120 | the pairs of two batches in turn are the pairs of their concatenation |
| ArchiveClean.ArchiveRowsSnoc | EmailLogCleanup/src/main/java/org/vm/email/cleanup/Clean.java:76-120 | one more parent adds its lines at the end |
| ArchiveClean.BatchRowsJoin | EmailLogCleanup/src/main/java/org/vm/email/cleanup/Clean.java:76-120 | the nested loops write exactly the lines of the join, parent by parent |
| ArchiveClean.ArchiveParent | EmailLogCleanup/src/main/java/org/vm/email/cleanup/Clean.java:77-119 | one parent's iteration appends exactly that parent's lines |
| ArchiveClean.ArchiveParents | EmailLogCleanup/src/main/java/org/vm/email/cleanup/Clean.java:76-120 | the outer loop appends exactly the join's lines and changes no table |
| ArchiveClean.PurgeStepTrans | EmailLogCleanup/src/main/java/org/vm/email/cleanup/Clean.java:130-181 | deleting steps compose: counts still balance and the trace only grows |
| ArchiveClean.DeleteEventsIn | EmailLogCleanup/src/main/java/org/vm/email/cleanup/Clean.java:134-140 | removes exactly the events whose guid the `IN` text names, and counts them; unreadable text is an SQL error |
| ArchiveClean.DeleteMailIn | EmailLogCleanup/src/main/java/org/vm/email/cleanup/Clean.java:142-145 | removes exactly the mail rows whose guid the `IN` text names, and counts them |
| ArchiveClean.DeleteSpecialIn | EmailLogCleanup/src/main/java/org/vm/email/cleanup/Clean.java:160-163 | removes exactly the expired `custom_email_to_volunteer` rows |
| ArchiveClean.SqlInListReadsBackAll | EmailLogCleanup/src/main/java/org/vm/email/cleanup/Clean.java:135-138 | a list of plain guids is read back as its literals |
| ArchiveClean.PurgeSpecial | EmailLogCleanup/src/main/java/org/vm/email/cleanup/Clean.java:159-175 | the guarded block removes the expired special mail and the events of `oppList`, and adds both counts |
| ArchiveClean.PurgeBatch | EmailLogCleanup/src/main/java/org/vm/email/cleanup/Clean.java:130-145 | disables key checks, then removes the batch's events and its mail by the same `IN` text |
| ArchiveClean.Close | EmailLogCleanup/src/main/java/org/vm/email/cleanup/Clean.java:178-181 | re-enables key checks and closes, with the tables unchanged |
| ArchiveClean.PurgeRest | EmailLogCleanup/src/main/java/org/vm/email/cleanup/Clean.java:147-181 | selects `oppList`, removes the expired special mail and its events only when `oppList` is non-empty, then closes |
| ArchiveClean.SpecialGuidsPlain | EmailLogCleanup/src/main/java/org/vm/email/cleanup/Clean.java:148-168 | `oppList` can be spliced when the table's guids can |
| ArchiveClean.NoSpecialLeft | EmailLogCleanup/src/main/java/org/vm/email/cleanup/Clean.java:159 | skipping the block for an empty `oppList` leaves the same tables as running it |
| ArchiveClean.PlainGuidsFilter | EmailLogCleanup/src/main/java/org/vm/email/cleanup/Clean.java:142-149 | guids stay plain after a delete |
| ArchiveClean.PlainBatch | EmailLogCleanup/src/main/java/org/vm/email/cleanup/Clean.java:71-89 | the selected guids can be spliced when the table's guids can |
| ArchiveClean.Purge | EmailLogCleanup/src/main/java/org/vm/email/cleanup/Clean.java:130-181 | the delete phase: its statements in order; the tables end as the SQL deletes define; it succeeds when nothing throws |
| ArchiveClean.Archive | EmailLogCleanup/src/main/java/org/vm/email/cleanup/Clean.java:50-121 | the file holds the header and every line of the batch's join; a negative limit is an SQL error; no table changes |
| ArchiveClean.StageUpload | EmailLogCleanup/src/main/java/org/vm/email/cleanup/Clean.java:122-127 | closing, then uploading, after a trace without deletes stages the archive |
| ArchiveClean.ArchiveFirst | EmailLogCleanup/src/main/java/org/vm/email/cleanup/Clean.java:122-134 | every run that continues a staged trace has that very upload directly after the file's close and before its first delete |
| ArchiveClean.NothingDeleted | EmailLogCleanup/src/main/java/org/vm/email/cleanup/Clean.java:50-127 | a run stopped before the deletes has deleted nothing, so it meets the archive-first order for any upload |
| ArchiveClean.ArchiveAndUpload | EmailLogCleanup/src/main/java/org/vm/email/cleanup/Clean.java:50-127 | everything before the first delete: the archive text, then close and upload, with no table touched on any path |
| ArchiveClean.RecordedSuffix | EmailLogCleanup/src/main/java/org/vm/email/cleanup/Clean.java:187-189 | the tail of the success string after the two counts: the bucket and the file name |
| ArchiveClean.Sweep | EmailLogCleanup/src/main/java/org/vm/email/cleanup/Clean.java:50-192 | on every path, including a caught exception after some deletes, the upload of the batch's archive text to `<bucket>/<fileName>` directly follows the file's close and precedes every delete; on success the counts are the rows removed, the string ends with the bucket and file name, the uploaded file is the batch's archive, both guid deletes ran with the same `IN` text of the batch's guids, and the tables end purged; it succeeds when nothing throws |
| ArchiveClean.HandleRequest | EmailLogCleanup/src/main/java/org/vm/email/cleanup/Clean.java:28-194 | throws exactly when `OFFSET` or `EMAILNUM` is malformed, touching nothing; otherwise the upload of the batch's archive to `<BUCKET>` as `<LOGNAME>.csv` precedes every delete, and a success reports the rows removed, names the bucket and `<LOGNAME>.csv`, runs both guid deletes with the batch's one `IN` text, and leaves the tables purged; a caught error needs an injected fault, a negative limit, or an unquotable guid |
| ArchiveClean.SpecialGuidsMembers | EmailLogCleanup/src/main/java/org/vm/email/cleanup/Clean.java:148-155 | a guid is in `oppList` exactly when an expired special row carries it |
| ArchiveClean.PurgedMail | EmailLogCleanup/src/main/java/org/vm/email/cleanup/Clean.java:142-163 | a mail row survives exactly when its guid is outside the `IN` list and it is not expired special mail |
| ArchiveClean.PurgedEvents | EmailLogCleanup/src/main/java/org/vm/email/cleanup/Clean.java:134-171 | an event survives exactly when its guid is outside the `IN` list and no remaining expired special row shares it |
| ArchiveClean.ExpiredSpecialMailGone | EmailLogCleanup/src/main/java/org/vm/email/cleanup/Clean.java:159-163 | no expired `custom_email_to_volunteer` row survives a run |
| ArchiveClean.ArchivedPairsDeleted | EmailLogCleanup/src/main/java/org/vm/email/cleanup/Clean.java:86-145 | every archived pair is gone from both tables, and its line is in the archive |
| ArchiveClean.DeletedEventWasArchivedOrSpecial | EmailLogCleanup/src/main/java/org/vm/email/cleanup/Clean.java:134-171 | with a non-empty batch, every deleted event was archived with its parent or belonged to expired special mail |
| ArchiveClean.DeletedMailWasSelectedOrSpecial | EmailLogCleanup/src/main/java/org/vm/email/cleanup/Clean.java:142-163 | with a non-empty batch, every deleted mail row shares a selected guid or was expired special mail |
| ArchiveClean.SpecialMailNeverArchived | EmailLogCleanup/src/main/java/org/vm/email/cleanup/Clean.java:71 | no archived line belongs to `custom_email_to_volunteer` mail |
| ArchiveClean.ParentWithoutEventsDeletedUnrecorded | EmailLogCleanup/src/main/java/org/vm/email/cleanup/Clean.java:86-145 | a selected parent without events is deleted, yet no archived line records it |
| ArchiveClean.EmptyBatchDeletesEmptyGuids | EmailLogCleanup/src/main/java/org/vm/email/cleanup/Clean.java:134-145 | an empty batch archives only the header, yet its `('')` text deletes every row whose guid is empty |
| LegacyClean.EventsFrom | EmailLogCleanup/src/main/java/emailcleanup/Clean.java:73-76 | the events `DELETE FROM sendgrid_event WHERE timestamp < ?` leaves |
| LegacyClean.MailFrom | EmailLogCleanup/src/main/java/emailcleanup/Clean.java:78-81 | the mail `DELETE FROM mail_log WHERE sent_time < ?` leaves |
| LegacyClean.Steps | EmailLogCleanup/src/main/java/emailcleanup/Clean.java:39-87 | the statements of the handler in order when nothing fails |
| LegacyClean.Apply | EmailLogCleanup/src/main/java/emailcleanup/Clean.java:71-87 | what a completed statement does: each delete keeps the rows at or after the cutoff and records `executeUpdate`'s count |
| LegacyClean.EventsSplitAtCutoff | EmailLogCleanup/src/main/java/emailcleanup/Clean.java:73-76 | the events kept and the events deleted together are all the events |
| LegacyClean.MailSplitAtCutoff | EmailLogCleanup/src/main/java/emailcleanup/Clean.java:78-81 | the mail kept and the mail deleted together are all the mail |
| LegacyClean.ApplyAll | EmailLogCleanup/src/main/java/emailcleanup/Clean.java:39-87 | running statements records exactly them, in order |
| LegacyClean.ApplyAllSnoc | EmailLogCleanup/src/main/java/emailcleanup/Clean.java:39-87 | running one more statement applies it to the state the others left |
| LegacyClean.RunSteps | EmailLogCleanup/src/main/java/emailcleanup/Clean.java:24-97 | a run stops at the statement that throws, with exactly the statements before it applied; without a fault all complete |
| LegacyClean.StepsEffects | EmailLogCleanup/src/main/java/emailcleanup/Clean.java:39-87 | the handler uploads nothing, and has deleted once it passes the third statement |
| LegacyClean.StepsApplied | EmailLogCleanup/src/main/java/emailcleanup/Clean.java:71-87 | after each prefix of statements: tables unchanged, then the old events gone, then the old mail too, with the matching counts |
| LegacyClean.Purge | EmailLogCleanup/src/main/java/emailcleanup/Clean.java:39-87 | the trace is a prefix of connect, disable checks, two deletes, enable checks, close; the tables reflect the deletes in it; a completed run has removed every older row and counted the removals; an interrupted one leaves the tables untouched, with the old events gone, or with both deletes done; it completes when nothing throws |
| LegacyClean.Sweep | EmailLogCleanup/src/main/java/emailcleanup/Clean.java:39-97 | on success every row older than the cutoff is removed and counted; a caught exception leaves the tables untouched, with events removed, or with both removed |
| LegacyClean.HandleRequest | EmailLogCleanup/src/main/java/emailcleanup/Clean.java:23-98 | throws exactly when `OFFSET` is malformed, touching nothing; never uploads; otherwise `Sweep` at the computed cutoff |
| LegacyClean.SuccessfulSweep | EmailLogCleanup/src/main/java/emailcleanup/Clean.java:71-93 | after a success no row older than the cutoff remains, every newer row remains, and the reported counts are the numbers of older rows |

## Left out

- JDBC, the MySQL server, the local file system and the S3 client are not executed. They appear as effects in the trace, and the model applies the SQL statements to table values. `Class.forName` is folded into the connect step.
- `S3LogWriter.writeLog` is modelled as an upload that always succeeds. It catches `SdkClientException` and `FileNotFoundException` and only prints them (S3LogWriter.java line 53), so after a failed upload the handler still runs every delete (Clean.java lines 127-145). The archive-first order (`Execution.ArchivedBeforeDeleted`) therefore orders an upload *attempt* before the deletes; it does not promise that the archive was stored. The object-store client is not part of this model.
- `tsToString` (`SimpleDateFormat("yyyy-MM-dd HH:mm:ss")`) is a parameter. Date formatting and time zones are not modelled: time is integer seconds in one zone without daylight-saving shifts.
- The database credentials (`DBNAME`, `DBUSER`, `DBPASSWORD`, `PORT`, `HOSTNAME`) and the JDBC URL are left out, because they only select the server.
- The `System.out.println` and `printStackTrace` output is left out, because it reaches only the log.
- `ORDER BY sent_time ASC` is modelled as a stable sort. SQL leaves the order of equal `sent_time` rows unspecified, and the model fixes one order.
- `file.createNewFile()` returning `false` is not an error in the source (it only prints), so the model records the create step and carries on.
- EmailDb.ReadInList: the model reads the `IN` text with a small grammar: single-quoted literals without backslashes, separated by commas and closed by `)`. Any text outside that grammar is reported as an SQL error, so `ArchiveClean.DeleteEventsIn` and `ArchiveClean.DeleteMailIn` fail and `HandleRequest` ends in its caught outcome. MySQL reads more than this grammar. It honours backslash escapes and doubled quotes, and it executes whitespace, operators and further SQL that a guid places after a closing quote. For example, the guid `x' OR '1'='1` makes the source run `DELETE FROM sendgrid_event WHERE guid IN ('x' OR '1'='1')` and report SUCCESS. So for a table holding a guid that is not a `PlainLiteral`, the model's error outcome is not the source's behaviour. A guid containing `','` stays inside the grammar: it splices extra literals into the list, and the deletes then remove the rows with those guids, as MySQL would. The read-back lemmas are stated for guids without quotes or backslashes (`PlainLiteral`).
- ArchiveClean.DeleteEventsIn: on `IN` text outside the grammar of `EmailDb.ReadInList` it reports an SQL error and deletes nothing, where MySQL may execute the statement and delete rows.
- ArchiveClean.DeleteMailIn: the same as `ArchiveClean.DeleteEventsIn`, for the `mail_log` delete.
- `SharedCSVWriter`, `SharedFileWriter`, `Writer` and `WriteLog` are not part of this model. Of `CSVWriter`, the header-first constructor and the three appends are modelled. `flushAndClose` and the file-creation helpers are left out, because they only wrap the file system; the flush and close that `Clean` performs on its own `FileWriter` is a trace effect.
- The commented-out test block of the legacy handler (`emailcleanup/Clean.java` lines 41-68) is not modelled, because it never runs.
- CsvWriter.WriteString: an `IOException` from the underlying `FileWriter` is caught and only printed (CSVWriter.java lines 24-28). The text is then lost and the run continues. The model's appends always succeed, because no caller observes the failure except by reading the file.
- CsvWriter.AddComma: the same swallowed `IOException` loses the comma (CSVWriter.java lines 32-36). The model always appends it.
- CsvWriter.NewLine: the same swallowed `IOException` loses the newline (CSVWriter.java lines 40-44). The model always appends it.
- CsvWriter.WriteCSVHeader: the same swallowed `IOException` can stop the header after any column (CleanCSVWriter.java lines 34 and 91-93). The model always writes the whole header.
- CsvWriter.NewCleanCsvWriter: `createFileWriter` returns `null` when the file cannot be opened (CSVWriter.java lines 86-93). The first header append then throws `NullPointerException`. The model assumes the file opens.
- CsvWriter.WriteToFile: with fewer than two lists, `fileInfo.get(1)` throws `IndexOutOfBoundsException` (CleanCSVWriter.java lines 24-25). That unchecked exception is a caller error, so the model requires two lists. Lists after the second are ignored, as in the source.
- JavaInt.ParseInt: accepts ASCII digits only. `Integer.parseInt` reads digits through `Character.digit`, so it also accepts other Unicode decimal digits (e.g. Arabic-Indic or fullwidth) that the model rejects as a `NumberFormatException`.
- Timestamps.ConvertToTimestamp: the `yyyy-MM-dd` round trip (Clean.java lines 210-213, emailcleanup/Clean.java lines 113-115) prints no era, so a target day before year 1 parses back as the same year after Christ. An `OFFSET` that reaches that far gives the source a cutoff millennia later, which for the largest offsets lies in the future. Such a cutoff makes the legacy handler delete every row and the archive handler take the oldest `EMAILNUM` rows whatever their age. The model keeps the true start of the target day, and it does not model calendars, eras or the Julian-Gregorian switch.
- Execution.Outcome: the counts are unbounded. In the source they are Java `int`s returned by `executeUpdate` (Clean.java lines 140, 145, 163 and 171; emailcleanup/Clean.java lines 76 and 81), and the additions at Clean.java lines 173-174 wrap past 2^31-1. The model reports the exact number of rows removed, so the success string differs only for tables of more than 2^31-1 rows.
- Column values: every `mail_log` and `sendgrid_event` column is a non-null string or an unbounded integer, compared by exact equality. SQL `NULL` is not modelled. A `NULL` `type` matches neither `type != 'custom_email_to_volunteer'` nor `type = ...`, so such a row is never deleted. A `NULL` guid becomes the literal `'null'` through `String::valueOf`. A `NULL` timestamp makes `tsToString` throw an uncaught `NullPointerException` before the upload. MySQL's default case-insensitive, pad-space collation, which affects the type tests and the `IN` matching, is not modelled. `id`, `asm_group_id` and `tls` are 32-bit `getInt` values in the source.

=== FILE: archive_clean.dfy ===
/**
 * `org.vm.email.cleanup.Clean.handleRequest`: selects the oldest batch of
 * non-special `mail_log` rows before the cutoff, writes each one joined with
 * its `sendgrid_event` rows to a CSV file, uploads the file, and only then
 * deletes the batch (events first, then mail by the same guid list) and
 * every expired `custom_email_to_volunteer` row with its events.
 */
module ArchiveClean {
  import opened Wrappers
  import opened Seqs
  import opened EmailDb
  import opened Execution
  import CsvWriter
  import JavaInt
  import Timestamps

  /** The environment variables the handler reads (the database credentials are left out). */
  datatype Env = Env(offset: Option<string>, logName: Option<string>, emailNum: Option<string>, bucket: Option<string>)

  // ---- reference definitions ----------------------------------------------

  /** The row `handleRequest` appends for one (parent, event) pair of the join. */
  function PairRow(p: MailLog, e: SendgridEvent, tsToString: int -> string): string
  {
    CsvWriter.ArchiveRow(MailInfo(p, tsToString), EventInfo(e, tsToString))
  }

  /**
   * The archiving steps below are stated for any rendering `row` of a pair;
   * the handler renders with `PairRow`.
   */
  function RowOf(tsToString: int -> string): (MailLog, SendgridEvent) -> string
  {
    (p: MailLog, e: SendgridEvent) => PairRow(p, e, tsToString)
  }

  /** The archive rows of a join, one per (parent, event) pair, in order. */
  function ArchiveRows(pairs: seq<(MailLog, SendgridEvent)>, row: (MailLog, SendgridEvent) -> string): (r: seq<string>)
    ensures |r| == |pairs|
    ensures forall k | 0 <= k < |pairs| :: r[k] == row(pairs[k].0, pairs[k].1)
  {
    if |pairs| == 0 then [] else [row(pairs[0].0, pairs[0].1)] + ArchiveRows(pairs[1..], row)
  }

  lemma {:induction false} ArchiveRowsAppend(a: seq<(MailLog, SendgridEvent)>, b: seq<(MailLog, SendgridEvent)>, row: (MailLog, SendgridEvent) -> string)
    ensures ArchiveRows(a + b, row) == ArchiveRows(a, row) + ArchiveRows(b, row)
  {
    if |a| > 0 {
      assert (a + b)[0] == a[0];
      assert (a + b)[1..] == a[1..] + b;
      ArchiveRowsAppend(a[1..], b, row);
    } else {
      assert a + b == b;
    }
  }

  /** The whole archive of a batch: the header, then every row of the batch's join. */
  function ArchiveText(batch: seq<MailLog>, events: seq<SendgridEvent>, tsToString: int -> string): string
  {
    CsvWriter.HeaderLine + Concat(ArchiveRows(JoinPairs(batch, events), RowOf(tsToString)))
  }

  /** The literals the `IN` text of a guid list names when no guid needs quoting: an empty list names the empty guid. */
  function Literals(guids: seq<string>): (r: seq<string>)
    ensures |r| >= 1
    ensures forall i | 0 <= i < |guids| :: guids[i] in r
    ensures forall i | 0 <= i < |r| :: r[i] in guids || (|guids| == 0 && r[i] == "")
  {
    if |guids| == 0 then [""] else guids
  }

  predicate PlainGuids(mail: seq<MailLog>)
  {
    forall i | 0 <= i < |mail| :: PlainLiteral(mail[i].guid)
  }

  /** Every guid of the list can be spliced between quotes as it is. */
  predicate PlainList(guids: seq<string>)
  {
    forall i | 0 <= i < |guids| :: PlainLiteral(guids[i])
  }

  /** `oppList`: the guids of the expired special mail. */
  function SpecialGuids(mail: seq<MailLog>, cutoff: int): seq<string>
  {
    Guids(Filter(mail, (m: MailLog) => SpecialExpired(m, cutoff)))
  }

  /**
   * The tables after the deletes, as the SQL statements define them, for a
   * batch whose guids are `guids`; unconditional in the special rows.
   */
  function Purged(t: Tables, guids: seq<string>, cutoff: int): Tables
  {
    var mail := MailNotIn(t.mailLog, Literals(guids));
    var events := EventsNotIn(t.sendgridEvent, Literals(guids));
    Tables(MailNotSpecialExpired(mail, cutoff), EventsNotIn(events, SpecialGuids(mail, cutoff)))
  }

  /** `DELETE FROM mail_log WHERE sent_time < ? AND type = 'custom_email_to_volunteer'`: the rows that stay. */
  function MailNotSpecialExpired(mail: seq<MailLog>, cutoff: int): seq<MailLog>
  {
    Filter(mail, (m: MailLog) => !SpecialExpired(m, cutoff))
  }

  /** Rows deleted so far plus rows still present stays constant, per table. */
  predicate Counted(x: Exec, y: Exec)
  {
    && x.deletedEvents + |x.tables.sendgridEvent| == y.deletedEvents + |y.tables.sendgridEvent|
    && x.deletedMail + |x.tables.mailLog| == y.deletedMail + |y.tables.mailLog|
  }

  /** A step that only reads or writes the file: tables, counters and deletes untouched. */
  predicate ReadOnlyStep(x: Exec, y: Exec)
  {
    && y.tables == x.tables && y.deletedEvents == x.deletedEvents && y.deletedMail == x.deletedMail
    && DeleteCount(y.trace) == DeleteCount(x.trace)
  }

  // ---- archiving ----------------------------------------------------------

  /** Connect, create `/tmp/<name>.csv`, write the header. */
  method Open(x: Exec, path: string, failAt: Option<nat>) returns (r: Result<Exec, Exec>)
    ensures ReadOnlyStep(x, State(r))
    ensures r.Ok? ==> r.value.file.content == CsvWriter.HeaderLine
    ensures failAt.None? ==> r.Ok?
  {
    var x1 :- Attempt(x, Connect, failAt);
    var x2 :- Attempt(x1, CreateFile(path), failAt);
    var x3 :- Attempt(x2.(file := CsvWriter.Buffer("")), Append(CsvWriter.HeaderLine), failAt);
    return Ok(x3.(file := CsvWriter.WriteCSVHeader(x3.file)));
  }

  /** `csvWriter.append` of the row of one mail/event pair. */
  method AppendRow(x: Exec, p: MailLog, e: SendgridEvent, row: (MailLog, SendgridEvent) -> string, failAt: Option<nat>)
    returns (r: Result<Exec, Exec>)
    ensures ReadOnlyStep(x, State(r))
    ensures r.Ok? ==> r.value.file.content == x.file.content + row(p, e)
    ensures failAt.None? ==> r.Ok?
  {
    var text := row(p, e);
    var x1 :- Attempt(x, Append(text), failAt);
    return Ok(x1.(file := CsvWriter.Buffer(x1.file.content + text)));
  }

  lemma {:induction false} ReadOnlyTrans(x: Exec, y: Exec, z: Exec)
    requires ReadOnlyStep(x, y) && ReadOnlyStep(y, z)
    ensures ReadOnlyStep(x, z)
  {
  }

  /** The rows of a parent's first `j + 1` events: those of the first `j`, then the row of event `j`. */
  lemma {:induction false} RowsOfParentSnoc(p: MailLog, events: seq<SendgridEvent>, j: nat, row: (MailLog, SendgridEvent) -> string)
    requires j < |events|
    ensures Concat(ArchiveRows(PairWith(p, events[..j + 1]), row)) ==
      Concat(ArchiveRows(PairWith(p, events[..j]), row)) + row(p, events[j])
  {
    var text := row(p, events[j]);
    assert PairWith(p, events[..j + 1]) == PairWith(p, events[..j]) + [(p, events[j])];
    ArchiveRowsAppend(PairWith(p, events[..j]), [(p, events[j])], row);
    assert ArchiveRows([(p, events[j])], row) == [text];
    ConcatAppend(ArchiveRows(PairWith(p, events[..j]), row), [text]);
    assert Concat([text]) == text + Concat([]);
  }

  /**
   * The inner `while (rs2.next())` loop: one row per event of parent `p`,
   * in the order the event query returns them.
   */
  method WriteRows(x: Exec, p: MailLog, events: seq<SendgridEvent>, row: (MailLog, SendgridEvent) -> string, failAt: Option<nat>)
    returns (r: Result<Exec, Exec>)
    ensures ReadOnlyStep(x, State(r))
    ensures r.Ok? ==> r.value.file.content == x.file.content + Concat(ArchiveRows(PairWith(p, events), row))
    ensures failAt.None? ==> r.Ok?
  {
    var y := x;
    for j := 0 to |events|
      invariant ReadOnlyStep(x, y)
      invariant y.file.content == x.file.content + Concat(ArchiveRows(PairWith(p, events[..j]), row))
    {
      var a := AppendRow(y, p, events[j], row, failAt);
      if a.Err? {
        return a;
      }
      RowsOfParentSnoc(p, events, j, row);
      ReadOnlyTrans(x, y, a.value);
      y := a.value;
    }
    assert events[..|events|] == events;
    return Ok(y);
  }

  lemma {:induction false} JoinPairsAppend(a: seq<MailLog>, b: seq<MailLog>, events: seq<SendgridEvent>)
    ensures JoinPairs(a + b, events) == JoinPairs(a, events) + JoinPairs(b, events)
  {
    if |a| > 0 {
      assert (a + b)[1..] == a[1..] + b;
      JoinPairsAppend(a[1..], b, events);
    } else {
      assert a + b == b;
    }
  }

  /** The archive text of the first `i + 1` parents: that of the first `i`, then the rows of parent `i`. */
  lemma {:induction false} ArchiveRowsSnoc(batch: seq<MailLog>, i: nat, events: seq<SendgridEvent>, row: (MailLog, SendgridEvent) -> string)
    requires i < |batch|
    ensures Concat(ArchiveRows(JoinPairs(batch[..i + 1], events), row)) ==
      Concat(ArchiveRows(JoinPairs(batch[..i], events), row))
      + Concat(ArchiveRows(PairWith(batch[i], EventsOf(events, batch[i].guid)), row))
  {
    var head := JoinPairs(batch[..i], events);
    var last := PairWith(batch[i], EventsOf(events, batch[i].guid));
    assert batch[..i + 1] == batch[..i] + [batch[i]];
    JoinPairsAppend(batch[..i], [batch[i]], events);
    assert JoinPairs([batch[i]], events) == last + JoinPairs([], events);
    assert last + [] == last;
    ArchiveRowsAppend(head, last, row);
    ConcatAppend(ArchiveRows(head, row), ArchiveRows(last, row));
  }

  /** The rows of one parent: one per event of its guid, in table order. */
  function ParentRows(p: MailLog, events: seq<SendgridEvent>, row: (MailLog, SendgridEvent) -> string): string
  {
    Concat(ArchiveRows(PairWith(p, EventsOf(events, p.guid)), row))
  }

  /** The rows of a batch, parent after parent, as the outer loop writes them. */
  function BatchRows(batch: seq<MailLog>, events: seq<SendgridEvent>, row: (MailLog, SendgridEvent) -> string): string
  {
    if |batch| == 0 then ""
    else BatchRows(batch[..|batch| - 1], events, row) + ParentRows(batch[|batch| - 1], events, row)
  }

  /** Writing parent after parent gives the rows of the whole join. */
  lemma {:induction false} BatchRowsJoin(batch: seq<MailLog>, events: seq<SendgridEvent>, row: (MailLog, SendgridEvent) -> string)
    ensures BatchRows(batch, events, row) == Concat(ArchiveRows(JoinPairs(batch, events), row))
  {
    if |batch| > 0 {
      var i := |batch| - 1;
      BatchRowsJoin(batch[..i], events, row);
      ArchiveRowsSnoc(batch, i, events, row);
      assert batch[..i + 1] == batch;
    }
  }

  /** One iteration of the outer loop: select the events of parent `p`, then write their rows. */
  method ArchiveParent(x: Exec, p: MailLog, row: (MailLog, SendgridEvent) -> string, failAt: Option<nat>)
    returns (r: Result<Exec, Exec>)
    ensures ReadOnlyStep(x, State(r))
    ensures r.Ok? ==> r.value.file.content == x.file.content + ParentRows(p, x.tables.sendgridEvent, row)
    ensures failAt.None? ==> r.Ok?
  {
    var a := Attempt(x, SelectEvents(p.guid), failAt);
    if a.Err? {
      return a;
    }
    r := WriteRows(a.value, p, EventsOf(x.tables.sendgridEvent, p.guid), row, failAt);
    ReadOnlyTrans(x, a.value, State(r));
  }

  /**
   * The outer `while (rs.next())` loop: for each selected parent, select its
   * events and write their rows.
   */
  method ArchiveParents(x: Exec, batch: seq<MailLog>, row: (MailLog, SendgridEvent) -> string, failAt: Option<nat>)
    returns (r: Result<Exec, Exec>)
    ensures ReadOnlyStep(x, State(r))
    ensures r.Ok? ==>
      r.value.file.content == x.file.content + Concat(ArchiveRows(JoinPairs(batch, x.tables.sendgridEvent), row))
    ensures failAt.None? ==> r.Ok?
  {
    var events := x.tables.sendgridEvent;
    var y := x;
    for i := 0 to |batch|
      invariant ReadOnlyStep(x, y)
      invariant y.file.content == x.file.content + BatchRows(batch[..i], events, row)
    {
      var b := ArchiveParent(y, batch[i], row, failAt);
      ReadOnlyTrans(x, y, State(b));
      if b.Err? {
        return b;
      }
      assert batch[..i + 1][..i] == batch[..i];
      y := b.value;
    }
    assert batch[..|batch|] == batch;
    BatchRowsJoin(batch, events, row);
    return Ok(y);
  }

  // ---- deleting -----------------------------------------------------------

  /**
   * What every deleting step keeps: the counts balance, the file stays, the
   * trace only grows, and the tables change only when a delete was performed.
   */
  predicate PurgeStep(x: Exec, y: Exec)
  {
    && Counted(x, y) && y.file == x.file
    && x.trace <= y.trace && DeleteCount(x.trace) <= DeleteCount(y.trace)
    && (DeleteCount(y.trace) == DeleteCount(x.trace) ==> y.tables == x.tables)
  }

  lemma {:induction false} PurgeStepTrans(x: Exec, y: Exec, z: Exec)
    requires PurgeStep(x, y) && PurgeStep(y, z)
    ensures PurgeStep(x, z)
  {
  }

  /** `DELETE FROM sendgrid_event WHERE guid IN <inList>`; text the database cannot read is an SQL error. */
  method DeleteEventsIn(x: Exec, inList: string, failAt: Option<nat>) returns (r: Result<Exec, Exec>)
    ensures PurgeStep(x, State(r)) && State(r).tables.mailLog == x.tables.mailLog
    ensures r.Ok? ==>
      && ReadInList(inList).Some?
      && r.value.tables.sendgridEvent == EventsNotIn(x.tables.sendgridEvent, ReadInList(inList).value)
      && r.value.trace == x.trace + [DeleteEventsWhereGuidIn(inList)]
    ensures failAt.None? && ReadInList(inList).Some? ==> r.Ok?
  {
    var literals := ReadInList(inList);
    if literals.None? {
      return Err(x);
    }
    var x1 :- Attempt(x, DeleteEventsWhereGuidIn(inList), failAt);
    var kept := EventsNotIn(x.tables.sendgridEvent, literals.value);
    return Ok(x1.(tables := x1.tables.(sendgridEvent := kept),
                  deletedEvents := x.deletedEvents + (|x.tables.sendgridEvent| - |kept|)));
  }

  /** `DELETE FROM mail_log WHERE guid IN <inList>`. */
  method DeleteMailIn(x: Exec, inList: string, failAt: Option<nat>) returns (r: Result<Exec, Exec>)
    ensures PurgeStep(x, State(r)) && State(r).tables.sendgridEvent == x.tables.sendgridEvent
    ensures r.Ok? ==>
      && ReadInList(inList).Some?
      && r.value.tables.mailLog == MailNotIn(x.tables.mailLog, ReadInList(inList).value)
      && r.value.trace == x.trace + [DeleteMailWhereGuidIn(inList)]
    ensures failAt.None? && ReadInList(inList).Some? ==> r.Ok?
  {
    var literals := ReadInList(inList);
    if literals.None? {
      return Err(x);
    }
    var x1 :- Attempt(x, DeleteMailWhereGuidIn(inList), failAt);
    var kept := MailNotIn(x.tables.mailLog, literals.value);
    return Ok(x1.(tables := x1.tables.(mailLog := kept),
                  deletedMail := x.deletedMail + (|x.tables.mailLog| - |kept|)));
  }

  /** `DELETE FROM mail_log WHERE sent_time < ? AND type = 'custom_email_to_volunteer'`. */
  method DeleteSpecialIn(x: Exec, cutoff: int, failAt: Option<nat>) returns (r: Result<Exec, Exec>)
    ensures PurgeStep(x, State(r))
    ensures r.Ok? ==>
      && r.value.tables == x.tables.(mailLog := MailNotSpecialExpired(x.tables.mailLog, cutoff))
      && r.value.trace == x.trace + [DeleteSpecialMail(cutoff)]
    ensures failAt.None? ==> r.Ok?
  {
    var x1 :- Attempt(x, DeleteSpecialMail(cutoff), failAt);
    var kept := MailNotSpecialExpired(x.tables.mailLog, cutoff);
    return Ok(x1.(tables := x1.tables.(mailLog := kept),
                  deletedMail := x.deletedMail + (|x.tables.mailLog| - |kept|)));
  }

  lemma {:induction false} SqlInListReadsBackAll(guids: seq<string>)
    ensures PlainList(guids) ==> ReadInList(SqlInList(guids)) == Some(Literals(guids))
  {
    if PlainList(guids) {
      SqlInListReadsBack(guids);
    }
  }

  /** The guarded block: the expired special mail, then the events of `oppList`. */
  method PurgeSpecial(x: Exec, oppList: seq<string>, cutoff: int, failAt: Option<nat>) returns (r: Result<Exec, Exec>)
    ensures PurgeStep(x, State(r))
    ensures r.Ok? && PlainList(oppList) ==>
      r.value.tables == Tables(MailNotSpecialExpired(x.tables.mailLog, cutoff),
                               EventsNotIn(x.tables.sendgridEvent, Literals(oppList)))
    ensures failAt.None? && PlainList(oppList) ==> r.Ok?
  {
    var a := DeleteSpecialIn(x, cutoff, failAt);
    if a.Err? {
      return a;
    }
    SqlInListReadsBackAll(oppList);
    r := DeleteEventsIn(a.value, SqlInList(oppList), failAt);
    PurgeStepTrans(x, a.value, State(r));
  }

  /** Disable key checks, then delete the batch's events and its mail by the same `IN` text. */
  method PurgeBatch(x: Exec, inList: string, failAt: Option<nat>) returns (r: Result<Exec, Exec>)
    ensures PurgeStep(x, State(r))
    ensures r.Ok? ==>
      && ReadInList(inList).Some?
      && r.value.trace == x.trace + [SetForeignKeyChecks(false), DeleteEventsWhereGuidIn(inList), DeleteMailWhereGuidIn(inList)]
      && r.value.tables == Tables(MailNotIn(x.tables.mailLog, ReadInList(inList).value),
                                  EventsNotIn(x.tables.sendgridEvent, ReadInList(inList).value))
    ensures failAt.None? && ReadInList(inList).Some? ==> r.Ok?
  {
    var a := Attempt(x, SetForeignKeyChecks(false), failAt);
    if a.Err? {
      return a;
    }
    var b := DeleteEventsIn(a.value, inList, failAt);
    PurgeStepTrans(x, a.value, State(b));
    if b.Err? {
      return b;
    }
    r := DeleteMailIn(b.value, inList, failAt);
    PurgeStepTrans(x, b.value, State(r));
  }

  /** `SET FOREIGN_KEY_CHECKS=1`, then close the connection. */
  method Close(x: Exec, failAt: Option<nat>) returns (r: Result<Exec, Exec>)
    ensures PurgeStep(x, State(r)) && State(r).tables == x.tables
    ensures r.Ok? ==> r.value.trace == x.trace + [SetForeignKeyChecks(true), CloseConnection]
    ensures failAt.None? ==> r.Ok?
  {
    var x1 :- Attempt(x, SetForeignKeyChecks(true), failAt);
    r := Attempt(x1, CloseConnection, failAt);
  }

  /**
   * Select `oppList`; when it is non-empty, delete the expired special mail
   * and its events; then re-enable key checks and close.
   */
  method PurgeRest(x: Exec, cutoff: int, failAt: Option<nat>) returns (r: Result<Exec, Exec>)
    ensures PurgeStep(x, State(r))
    ensures r.Ok? ==>
      && x.trace + [SelectSpecial(cutoff)] <= r.value.trace
      && |r.value.trace| >= |x.trace| + 3
      && r.value.trace[|r.value.trace| - 2..] == [SetForeignKeyChecks(true), CloseConnection]
    ensures r.Ok? && PlainGuids(x.tables.mailLog) ==>
      r.value.tables == Tables(MailNotSpecialExpired(x.tables.mailLog, cutoff),
                               EventsNotIn(x.tables.sendgridEvent, SpecialGuids(x.tables.mailLog, cutoff)))
    ensures failAt.None? && PlainGuids(x.tables.mailLog) ==> r.Ok?
  {
    var a := Attempt(x, SelectSpecial(cutoff), failAt);
    if a.Err? {
      return a;
    }
    var x1 := a.value;
    var oppList := SpecialGuids(x1.tables.mailLog, cutoff);
    var y := x1;
    if |oppList| == 0 {
      NoSpecialLeft(x1.tables.mailLog, x1.tables.sendgridEvent, cutoff);
    } else {
      SpecialGuidsPlain(x1.tables.mailLog, cutoff);
      assert Literals(oppList) == oppList;
      var b := PurgeSpecial(x1, oppList, cutoff, failAt);
      PurgeStepTrans(x, x1, State(b));
      if b.Err? {
        return b;
      }
      y := b.value;
    }
    r := Close(y, failAt);
    PurgeStepTrans(x, y, State(r));
  }

  /** The guids of special rows are plain when every guid of the table is. */
  lemma {:induction false} SpecialGuidsPlain(mail: seq<MailLog>, cutoff: int)
    ensures PlainGuids(mail) ==> PlainList(SpecialGuids(mail, cutoff))
  {
    var special := Filter(mail, (m: MailLog) => SpecialExpired(m, cutoff));
    forall i | 0 <= i < |SpecialGuids(mail, cutoff)| && PlainGuids(mail)
      ensures PlainLiteral(SpecialGuids(mail, cutoff)[i])
    {
      assert special[i] in mail;
      var j :| 0 <= j < |mail| && mail[j] == special[i];
    }
  }

  /** With no expired special mail, the guarded block would have changed nothing. */
  lemma {:induction false} NoSpecialLeft(mail: seq<MailLog>, events: seq<SendgridEvent>, cutoff: int)
    requires |SpecialGuids(mail, cutoff)| == 0
    ensures MailNotSpecialExpired(mail, cutoff) == mail
    ensures EventsNotIn(events, SpecialGuids(mail, cutoff)) == events
  {
    var special := Filter(mail, (m: MailLog) => SpecialExpired(m, cutoff));
    assert |special| == 0;
    forall i | 0 <= i < |mail|
      ensures !SpecialExpired(mail[i], cutoff)
    {
      assert mail[i] in mail;
    }
    FilterAll(mail, (m: MailLog) => !SpecialExpired(m, cutoff));
    FilterAll(events, (e: SendgridEvent) => e.guid !in SpecialGuids(mail, cutoff));
  }

  lemma {:induction false} PlainGuidsFilter(mail: seq<MailLog>, keep: MailLog -> bool)
    ensures PlainGuids(mail) ==> PlainGuids(Filter(mail, keep))
  {
    var kept := Filter(mail, keep);
    forall i | 0 <= i < |kept| && PlainGuids(mail)
      ensures PlainLiteral(kept[i].guid)
    {
      assert kept[i] in mail;
    }
  }

  /** The guid list of the batch is plain when every guid of the table is. */
  lemma {:induction false} PlainBatch(mail: seq<MailLog>, cutoff: int, limit: int)
    ensures PlainGuids(mail) ==> PlainList(Guids(Batch(mail, cutoff, limit)))
  {
    var batch := Batch(mail, cutoff, limit);
    forall i | 0 <= i < |batch| && PlainGuids(mail)
      ensures PlainLiteral(Guids(batch)[i])
    {
      assert batch[i] in mail;
    }
  }

  /** The deletes after the upload: the batch by its `IN` text, then the special rows, then closing. */
  method Purge(x: Exec, guids: seq<string>, cutoff: int, failAt: Option<nat>) returns (r: Result<Exec, Exec>)
    ensures PurgeStep(x, State(r))
    ensures r.Ok? ==>
      && x.trace + [SetForeignKeyChecks(false), DeleteEventsWhereGuidIn(SqlInList(guids)),
                    DeleteMailWhereGuidIn(SqlInList(guids)), SelectSpecial(cutoff)] <= r.value.trace
      && |r.value.trace| >= |x.trace| + 6
      && r.value.trace[|r.value.trace| - 2..] == [SetForeignKeyChecks(true), CloseConnection]
    ensures r.Ok? && PlainGuids(x.tables.mailLog) && PlainList(guids) ==>
      r.value.tables == Purged(x.tables, guids, cutoff)
    ensures failAt.None? && PlainGuids(x.tables.mailLog) && PlainList(guids) ==> r.Ok?
  {
    var inList := SqlInList(guids);
    SqlInListReadsBackAll(guids);
    var b := PurgeBatch(x, inList, failAt);
    if b.Err? {
      return b;
    }
    PlainGuidsFilter(x.tables.mailLog, (m: MailLog) => m.guid !in ReadInList(inList).value);
    r := PurgeRest(b.value, cutoff, failAt);
    PurgeStepTrans(x, b.value, State(r));
  }

  // ---- the handler ----------------------------------------------------------

  /** What the batch query returns; a negative `LIMIT` is rejected by the database before any row. */
  function Batch(mail: seq<MailLog>, cutoff: int, limit: int): seq<MailLog>
  {
    if limit < 0 then [] else SelectOldest(mail, cutoff, limit)
  }

  /** Open the file, run the batch query (whose rows are `batch`), write its rows. */
  method Archive(x: Exec, cutoff: int, limit: int, batch: seq<MailLog>, fileName: string, tsToString: int -> string, failAt: Option<nat>)
    returns (r: Result<Exec, Exec>)
    ensures ReadOnlyStep(x, State(r))
    ensures r.Ok? ==>
      && limit >= 0
      && r.value.file.content == ArchiveText(batch, x.tables.sendgridEvent, tsToString)
    ensures failAt.None? && limit >= 0 ==> r.Ok?
  {
    var a := Open(x, "/tmp/" + fileName, failAt);
    if a.Err? {
      return a;
    }
    if limit < 0 {
      return Err(a.value);
    }
    var b := Attempt(a.value, SelectMail(cutoff, limit), failAt);
    ReadOnlyTrans(x, a.value, State(b));
    if b.Err? {
      return b;
    }
    r := ArchiveParents(b.value, batch, RowOf(tsToString), failAt);
    ReadOnlyTrans(x, b.value, State(r));
  }

  /** A trace that ends by closing the file and uploading it, with no delete anywhere. */
  predicate Staged(t: seq<Effect>, upload: Effect)
  {
    && upload.Upload? && DeleteCount(t) == 0
    && |t| >= 2 && t[|t| - 2] == FlushClose && t[|t| - 1] == upload
  }

  /** Closing then uploading a file after a trace without deletes stages it. */
  lemma {:induction false} StageUpload(t0: seq<Effect>, t1: seq<Effect>, upload: Effect, t2: seq<Effect>)
    requires t1 == t0 + [FlushClose] && DeleteCount(t1) == 0
    requires upload.Upload? && t2 == t1 + [upload]
    ensures Staged(t2, upload)
  {
    assert t2[..|t1|] == t1;
  }

  /**
   * Every trace that continues a staged one has that upload before its
   * first delete.
   */
  lemma {:induction false} ArchiveFirst(t2: seq<Effect>, upload: Effect, t: seq<Effect>)
    requires Staged(t2, upload) && t2 <= t
    ensures ArchivedBeforeDeleted(t, upload) && upload in t
  {
    var u := |t2| - 1;
    var t1 := t2[..u];
    assert t1 + [upload] == t2;
    assert DeleteCount(t1) == 0;
    NoDeletesCount(t1);
    assert t[..u] == t1;
    assert t[u] == upload;
  }

  /** A trace that counts no delete has none, so it is on the archive-first side whatever the upload. */
  lemma {:induction false} NothingDeleted(t: seq<Effect>, upload: Effect)
    requires DeleteCount(t) == 0
    ensures NoDeletes(t) && ArchivedBeforeDeleted(t, upload)
  {
    NoDeletesCount(t);
  }

  /**
   * The part of the `try` block before the first delete: archive the batch,
   * close the file and upload it. Nothing is deleted on any path.
   */
  method ArchiveAndUpload(db: Tables, cutoff: int, limit: int, batch: seq<MailLog>, fileName: string, bucket: string,
                          tsToString: int -> string, failAt: Option<nat>)
    returns (r: Result<Exec, Exec>)
    ensures State(r).tables == db && State(r).deletedEvents == 0 && State(r).deletedMail == 0
    ensures r.Err? ==> DeleteCount(r.error.trace) == 0
    ensures r.Ok? ==>
      && r.value.file.content == ArchiveText(batch, db.sendgridEvent, tsToString)
      && Staged(r.value.trace, Upload(bucket, fileName, r.value.file.content))
    ensures failAt.None? && limit >= 0 ==> r.Ok?
  {
    var x := Exec(db, [], CsvWriter.Buffer(""), 0, 0);
    var a := Archive(x, cutoff, limit, batch, fileName, tsToString, failAt);
    if a.Err? {
      return a;
    }
    var c := Attempt(a.value, FlushClose, failAt);
    if c.Err? {
      return c;
    }
    var upload := Upload(bucket, fileName, c.value.file.content);
    r := Ok(c.value.(trace := c.value.trace + [upload]));
    StageUpload(a.value.trace, c.value.trace, upload, r.value.trace);
  }

  const RecordedIn: string := ". Deleted information has been recorded in "
  const InFile: string := " in file "

  /** What the success string says after the two counts: where the archive went. */
  function RecordedSuffix(bucket: string, fileName: string): string
  {
    RecordedIn + bucket + InFile + fileName
  }

  /** Both guid deletes of a run that got past them carry the same `IN` text. */
  lemma {:induction false} BatchDeletesIssued(before: seq<Effect>, t: seq<Effect>, inList: string, cutoff: int)
    requires before + [SetForeignKeyChecks(false), DeleteEventsWhereGuidIn(inList),
                       DeleteMailWhereGuidIn(inList), SelectSpecial(cutoff)] <= t
    ensures DeleteEventsWhereGuidIn(inList) in t && DeleteMailWhereGuidIn(inList) in t
  {
    assert t[|before| + 1] == DeleteEventsWhereGuidIn(inList);
    assert t[|before| + 2] == DeleteMailWhereGuidIn(inList);
  }

  /**
   * The body of the `try` after the configuration is read: archive, upload
   * the file under its name, purge. On success the counts are the rows
   * removed from each table and the file holds the header and every row of
   * the batch's join; that very file was uploaded before anything was
   * deleted, and the tables end as the SQL deletes define. Without a caught
   * exception, with a valid batch size and with quotable guids, the run
   * succeeds.
   */
  method Sweep(db: Tables, cutoff: int, limit: int, fileName: string, bucket: string, tsToString: int -> string, failAt: Option<nat>)
    returns (r: Run)
    ensures !r.outcome.Thrown?
    ensures ArchivedBeforeDeleted(r.trace, Upload(bucket, fileName, ArchiveText(Batch(db.mailLog, cutoff, limit), db.sendgridEvent, tsToString)))
    ensures NoDeletes(r.trace) ==> r.tables == db
    ensures r.outcome.Success? ==>
      && |r.tables.sendgridEvent| <= |db.sendgridEvent| && |r.tables.mailLog| <= |db.mailLog|
      && r.outcome.numSendgrid == |db.sendgridEvent| - |r.tables.sendgridEvent|
      && r.outcome.numMailLog == |db.mailLog| - |r.tables.mailLog|
      && r.outcome.suffix == RecordedSuffix(bucket, fileName)
      && r.file == ArchiveText(Batch(db.mailLog, cutoff, limit), db.sendgridEvent, tsToString)
      && Upload(bucket, fileName, r.file) in r.trace
      && (PlainGuids(db.mailLog) ==> r.tables == Purged(db, Guids(Batch(db.mailLog, cutoff, limit)), cutoff))
      && DeleteEventsWhereGuidIn(SqlInList(Guids(Batch(db.mailLog, cutoff, limit)))) in r.trace
      && DeleteMailWhereGuidIn(SqlInList(Guids(Batch(db.mailLog, cutoff, limit)))) in r.trace
    ensures failAt.None? && limit >= 0 && PlainGuids(db.mailLog) ==> r.outcome.Success?
  {
    var batch := Batch(db.mailLog, cutoff, limit);
    PlainBatch(db.mailLog, cutoff, limit);
    var s := ArchiveAndUpload(db, cutoff, limit, batch, fileName, bucket, tsToString, failAt);
    if s.Err? {
      NothingDeleted(s.error.trace, Upload(bucket, fileName, ArchiveText(batch, db.sendgridEvent, tsToString)));
      return Run(Caught, s.error.tables, s.error.trace, s.error.file.content);
    }
    var x := s.value;
    var p := Purge(x, Guids(batch), cutoff, failAt);
    var y := State(p);
    ArchiveFirst(x.trace, Upload(bucket, fileName, x.file.content), y.trace);
    NoDeletesCount(y.trace);
    if p.Err? {
      return Run(Caught, y.tables, y.trace, y.file.content);
    }
    BatchDeletesIssued(x.trace, y.trace, SqlInList(Guids(batch)), cutoff);
    return Run(Success(y.deletedEvents, y.deletedMail, RecordedSuffix(bucket, fileName)), y.tables, y.trace, y.file.content);
  }

  /**
   * The handler: read the offset and the batch size (a malformed one throws
   * a NumberFormatException, which no `catch` clause takes), then archive
   * and delete.
   */
  method HandleRequest(env: Env, now: int, db: Tables, tsToString: int -> string, failAt: Option<nat>) returns (r: Run)
    ensures r.outcome.Thrown? <==> JavaInt.ParseInt(env.offset).None? || JavaInt.ParseInt(env.emailNum).None?
    ensures r.outcome.Thrown? ==> r.tables == db && r.trace == [] && r.file == ""
    ensures Timestamps.ConvertToTimestamp(env.offset, now).Some? && JavaInt.ParseInt(env.emailNum).Some? ==>
      var cutoff := Timestamps.ConvertToTimestamp(env.offset, now).value;
      var batch := Batch(db.mailLog, cutoff, JavaInt.ParseInt(env.emailNum).value);
      ArchivedBeforeDeleted(r.trace, Upload(JavaString(env.bucket), JavaString(env.logName) + ".csv",
                                            ArchiveText(batch, db.sendgridEvent, tsToString)))
    ensures NoDeletes(r.trace) ==> r.tables == db
    ensures r.outcome.Success? ==>
      var cutoff := Timestamps.ConvertToTimestamp(env.offset, now).value;
      var batch := Batch(db.mailLog, cutoff, JavaInt.ParseInt(env.emailNum).value);
      && |r.tables.sendgridEvent| <= |db.sendgridEvent| && |r.tables.mailLog| <= |db.mailLog|
      && r.outcome.numSendgrid == |db.sendgridEvent| - |r.tables.sendgridEvent|
      && r.outcome.numMailLog == |db.mailLog| - |r.tables.mailLog|
      && r.outcome.suffix == RecordedSuffix(JavaString(env.bucket), JavaString(env.logName) + ".csv")
      && r.file == ArchiveText(batch, db.sendgridEvent, tsToString)
      && Upload(JavaString(env.bucket), JavaString(env.logName) + ".csv", r.file) in r.trace
      && (PlainGuids(db.mailLog) ==> r.tables == Purged(db, Guids(batch), cutoff))
      && DeleteEventsWhereGuidIn(SqlInList(Guids(batch))) in r.trace
      && DeleteMailWhereGuidIn(SqlInList(Guids(batch))) in r.trace
    ensures r.outcome.Caught? ==>
      failAt.Some? || JavaInt.ParseInt(env.emailNum).value < 0 || !PlainGuids(db.mailLog)
  {
    var cutoff := Timestamps.ConvertToTimestamp(env.offset, now);
    if cutoff.None? {
      return Run(Thrown(NumberFormatException), db, [], "");
    }
    var maxEmailNum := JavaInt.ParseInt(env.emailNum);
    if maxEmailNum.None? {
      return Run(Thrown(NumberFormatException), db, [], "");
    }
    r := Sweep(db, cutoff.value, maxEmailNum.value, JavaString(env.logName) + ".csv", JavaString(env.bucket), tsToString, failAt);
  }

  // ---- properties -----------------------------------------------------------

  /** A guid is in `oppList` exactly when some expired special row carries it. */
  lemma {:induction false} SpecialGuidsMembers(mail: seq<MailLog>, cutoff: int, g: string)
    ensures g in SpecialGuids(mail, cutoff) <==> exists m | m in mail :: m.guid == g && SpecialExpired(m, cutoff)
  {
    var special := Filter(mail, (m: MailLog) => SpecialExpired(m, cutoff));
    if g in SpecialGuids(mail, cutoff) {
      var i :| 0 <= i < |special| && SpecialGuids(mail, cutoff)[i] == g;
      assert special[i] in mail;
    }
    if m :| m in mail && m.guid == g && SpecialExpired(m, cutoff) {
      var j :| 0 <= j < |mail| && mail[j] == m;
      assert m in special;
      var i :| 0 <= i < |special| && special[i] == m;
      assert SpecialGuids(mail, cutoff)[i] == g;
    }
  }

  /** A mail row survives exactly when it is outside the batch's guids and not expired special mail. */
  lemma {:induction false} PurgedMail(t: Tables, guids: seq<string>, cutoff: int, m: MailLog)
    ensures m in Purged(t, guids, cutoff).mailLog <==>
      m in t.mailLog && m.guid !in Literals(guids) && !SpecialExpired(m, cutoff)
  {
    var mail := MailNotIn(t.mailLog, Literals(guids));
    if m in t.mailLog && m.guid !in Literals(guids) && !SpecialExpired(m, cutoff) {
      var j :| 0 <= j < |t.mailLog| && t.mailLog[j] == m;
      assert m in mail;
      var k :| 0 <= k < |mail| && mail[k] == m;
    }
  }

  /**
   * An event survives exactly when its guid is outside the batch's guids and
   * no expired special row left after the batch delete carries it.
   */
  lemma {:induction false} PurgedEvents(t: Tables, guids: seq<string>, cutoff: int, e: SendgridEvent)
    ensures e in Purged(t, guids, cutoff).sendgridEvent <==>
      && e in t.sendgridEvent && e.guid !in Literals(guids)
      && !(exists m | m in t.mailLog :: m.guid == e.guid && m.guid !in Literals(guids) && SpecialExpired(m, cutoff))
  {
    var mail := MailNotIn(t.mailLog, Literals(guids));
    var events := EventsNotIn(t.sendgridEvent, Literals(guids));
    SpecialGuidsMembers(mail, cutoff, e.guid);
    forall m | m in t.mailLog && m.guid !in Literals(guids)
      ensures m in mail
    {
      var j :| 0 <= j < |t.mailLog| && t.mailLog[j] == m;
    }
    if e in t.sendgridEvent && e.guid !in Literals(guids) {
      var j :| 0 <= j < |t.sendgridEvent| && t.sendgridEvent[j] == e;
      assert e in events;
      var k :| 0 <= k < |events| && events[k] == e;
    }
  }

  /** No expired special row is left, whatever the batch. */
  lemma {:induction false} ExpiredSpecialMailGone(t: Tables, guids: seq<string>, cutoff: int)
    ensures forall m | m in Purged(t, guids, cutoff).mailLog :: !SpecialExpired(m, cutoff)
  {
    forall m | m in Purged(t, guids, cutoff).mailLog
      ensures !SpecialExpired(m, cutoff)
    {
      PurgedMail(t, guids, cutoff, m);
    }
  }

  /** Every archived pair is gone from both tables, and its row is in the archive. */
  lemma {:induction false} ArchivedPairsDeleted(t: Tables, batch: seq<MailLog>, cutoff: int, tsToString: int -> string, p: MailLog, e: SendgridEvent)
    requires (p, e) in JoinPairs(batch, t.sendgridEvent)
    ensures p !in Purged(t, Guids(batch), cutoff).mailLog
    ensures e !in Purged(t, Guids(batch), cutoff).sendgridEvent
    ensures PairRow(p, e, tsToString) in ArchiveRows(JoinPairs(batch, t.sendgridEvent), RowOf(tsToString))
  {
    JoinPairsMembers(batch, t.sendgridEvent, p, e);
    var i :| 0 <= i < |batch| && batch[i] == p;
    assert p.guid in Literals(Guids(batch));
    PurgedMail(t, Guids(batch), cutoff, p);
    PurgedEvents(t, Guids(batch), cutoff, e);
    var pairs := JoinPairs(batch, t.sendgridEvent);
    var k :| 0 <= k < |pairs| && pairs[k] == (p, e);
    assert ArchiveRows(pairs, RowOf(tsToString))[k] == PairRow(p, e, tsToString);
  }

  /**
   * With a non-empty batch, every event that was deleted was either archived
   * with a selected parent or belonged to expired special mail.
   */
  lemma {:induction false} DeletedEventWasArchivedOrSpecial(t: Tables, batch: seq<MailLog>, cutoff: int, e: SendgridEvent)
    requires |batch| > 0
    requires e in t.sendgridEvent && e !in Purged(t, Guids(batch), cutoff).sendgridEvent
    ensures || (exists i | 0 <= i < |batch| :: (batch[i], e) in JoinPairs(batch, t.sendgridEvent))
            || (exists m | m in t.mailLog :: m.guid == e.guid && SpecialExpired(m, cutoff))
  {
    var guids := Guids(batch);
    PurgedEvents(t, guids, cutoff, e);
    if e.guid in Literals(guids) {
      var i :| 0 <= i < |guids| && guids[i] == e.guid;
      JoinPairsMembers(batch, t.sendgridEvent, batch[i], e);
    }
  }

  /** With a non-empty batch, every mail row that was deleted shares a selected guid or was expired special mail. */
  lemma {:induction false} DeletedMailWasSelectedOrSpecial(t: Tables, batch: seq<MailLog>, cutoff: int, m: MailLog)
    requires |batch| > 0
    requires m in t.mailLog && m !in Purged(t, Guids(batch), cutoff).mailLog
    ensures m.guid in Guids(batch) || SpecialExpired(m, cutoff)
  {
    PurgedMail(t, Guids(batch), cutoff, m);
  }

  /** Special mail is never selected, so it never reaches the archive. */
  lemma {:induction false} SpecialMailNeverArchived(mail: seq<MailLog>, events: seq<SendgridEvent>, cutoff: int, limit: int, tsToString: int -> string)
    ensures forall k | 0 <= k < |JoinPairs(Batch(mail, cutoff, limit), events)| ::
      var p := JoinPairs(Batch(mail, cutoff, limit), events)[k].0;
      p.mailType != CustomEmailToVolunteer && MailInfo(p, tsToString)[7] != CustomEmailToVolunteer
  {
    var batch := Batch(mail, cutoff, limit);
    var pairs := JoinPairs(batch, events);
    forall k | 0 <= k < |pairs|
      ensures pairs[k].0.mailType != CustomEmailToVolunteer
    {
      JoinPairsMembers(batch, events, pairs[k].0, pairs[k].1);
      var i :| 0 <= i < |batch| && batch[i] == pairs[k].0;
    }
  }

  /** A selected parent without events is deleted, yet no row of the archive records it. */
  lemma {:induction false} ParentWithoutEventsDeletedUnrecorded(t: Tables, batch: seq<MailLog>, cutoff: int, p: MailLog)
    requires p in batch
    requires forall i | 0 <= i < |t.sendgridEvent| :: t.sendgridEvent[i].guid != p.guid
    ensures p !in Purged(t, Guids(batch), cutoff).mailLog
    ensures forall k | 0 <= k < |JoinPairs(batch, t.sendgridEvent)| :: JoinPairs(batch, t.sendgridEvent)[k].0 != p
  {
    var i :| 0 <= i < |batch| && batch[i] == p;
    assert p.guid in Literals(Guids(batch));
    PurgedMail(t, Guids(batch), cutoff, p);
    ParentWithoutEventsHasNoPairs(batch, t.sendgridEvent, p);
  }

  /** An empty batch archives only the header, yet its `IN ('')` text deletes every row whose guid is empty. */
  lemma {:induction false} EmptyBatchDeletesEmptyGuids(t: Tables, cutoff: int, tsToString: int -> string)
    ensures ArchiveText([], t.sendgridEvent, tsToString) == CsvWriter.HeaderLine
    ensures SqlInList(Guids([])) == "('')"
    ensures forall m | m in Purged(t, Guids([]), cutoff).mailLog :: m.guid != ""
    ensures forall e | e in Purged(t, Guids([]), cutoff).sendgridEvent :: e.guid != ""
  {
    assert Literals(Guids([])) == [""];
    forall m | m in Purged(t, Guids([]), cutoff).mailLog
      ensures m.guid != ""
    {
      PurgedMail(t, Guids([]), cutoff, m);
    }
    forall e | e in Purged(t, Guids([]), cutoff).sendgridEvent
      ensures e.guid != ""
    {
      PurgedEvents(t, Guids([]), cutoff, e);
    }
  }
}

=== FILE: csv_writer.dfy ===
/**
 * The CSV archive as text: `CSVWriter`'s append-only buffer, the row that
 * `CleanCSVWriter.writeToFile` appends, the row `Clean.handleRequest`
 * appends inline, and the 28-column header both `writeCSVHeader`s write.
 * Nothing is quoted or escaped.
 */
module CsvWriter {
  import opened Text

  /** The text written so far to the writer's file. */
  datatype Buffer = Buffer(content: string)

  /** One `append` on the underlying FileWriter. */
  datatype Piece = Chars(s: string) | Delimiter | LineEnd

  function PieceText(p: Piece): string
  {
    match p
    case Chars(s) => s
    case Delimiter => ","
    case LineEnd => "\n"
  }

  /** The text a sequence of appends adds, in order. */
  function PiecesText(ps: seq<Piece>): string
  {
    if |ps| == 0 then "" else PieceText(ps[0]) + PiecesText(ps[1..])
  }

  lemma {:induction false} PiecesTextCons(p: Piece, ps: seq<Piece>)
    ensures PiecesText([p] + ps) == PieceText(p) + PiecesText(ps)
  {
    assert ([p] + ps)[1..] == ps;
  }

  lemma {:induction false} PiecesTextAppend(a: seq<Piece>, b: seq<Piece>)
    ensures PiecesText(a + b) == PiecesText(a) + PiecesText(b)
  {
    if |a| == 0 {
      assert a + b == b;
    } else {
      assert (a + b)[1..] == a[1..] + b;
      PiecesTextAppend(a[1..], b);
    }
  }

  /** `writeString(info)`. */
  function WriteString(b: Buffer, info: string): (r: Buffer)
    ensures b.content <= r.content
    ensures r.content[|b.content|..] == info
  {
    Buffer(b.content + info)
  }

  /** `addComma()`. */
  function AddComma(b: Buffer): (r: Buffer)
    ensures b.content <= r.content
    ensures r.content[|b.content|..] == ","
  {
    Buffer(b.content + ",")
  }

  /** `newLine()`. */
  function NewLine(b: Buffer): (r: Buffer)
    ensures b.content <= r.content
    ensures r.content[|b.content|..] == "\n"
  {
    Buffer(b.content + "\n")
  }

  function Perform(b: Buffer, p: Piece): (r: Buffer)
  {
    match p
    case Chars(s) => WriteString(b, s)
    case Delimiter => AddComma(b)
    case LineEnd => NewLine(b)
  }

  /** A run of appends: what was written before is never altered. */
  function PerformAll(b: Buffer, ps: seq<Piece>): (r: Buffer)
    ensures b.content <= r.content
    decreases |ps|
  {
    if |ps| == 0 then b else PerformAll(Perform(b, ps[0]), ps[1..])
  }

  /** A run of appends adds exactly the pieces' text, in order. */
  lemma {:induction false} PerformAllAppends(b: Buffer, ps: seq<Piece>)
    ensures PerformAll(b, ps).content == b.content + PiecesText(ps)
    decreases |ps|
  {
    if |ps| > 0 {
      var b1 := Perform(b, ps[0]);
      assert b1.content == b.content + PieceText(ps[0]);
      PerformAllAppends(b1, ps[1..]);
    }
  }

  const MailColumns: seq<string> :=
    ["ml_id", "ml_email", "ml_guid", "ml_host", "ml_ref1", "ml_ref2", "ml_sent_time", "ml_type"]

  const EventColumns: seq<string> :=
    ["se_sg_event_id", "se_asm_group_id", "se_attempt", "se_category", "se_email", "se_event",
     "se_ip", "se_reason", "se_response", "se_sg_message_id", "se_smtp_id", "se_status",
     "se_timestamp", "se_tls", "se_type", "se_unsubscribe_url", "se_url", "se_url_offset",
     "se_useragent", "se_vm_timestamp"]

  const HeaderColumns: seq<string> := MailColumns + EventColumns

  /** The header: every column name, separated by commas, ended by a newline. */
  const HeaderLine: string := Join(HeaderColumns, ",") + "\n"

  /** `writeCSVHeader`: name, comma, name, ..., name, newline, one append each. */
  function HeaderPieces(cols: seq<string>): seq<Piece>
    requires |cols| >= 1
  {
    if |cols| == 1 then [Chars(cols[0]), LineEnd]
    else [Chars(cols[0]), Delimiter] + HeaderPieces(cols[1..])
  }

  lemma {:induction false} HeaderPiecesText(cols: seq<string>)
    requires |cols| >= 1
    ensures PiecesText(HeaderPieces(cols)) == Join(cols, ",") + "\n"
  {
    if |cols| == 1 {
      PiecesTextCons(Chars(cols[0]), [LineEnd]);
      PiecesTextCons(LineEnd, []);
    } else {
      var rest := HeaderPieces(cols[1..]);
      PiecesTextAppend([Chars(cols[0]), Delimiter], rest);
      HeaderPiecesText(cols[1..]);
      PiecesTextCons(Chars(cols[0]), [Delimiter]);
      PiecesTextCons(Delimiter, []);
    }
  }

  /** `writeCSVHeader(fw)` on a fresh or partly written file. */
  function WriteCSVHeader(b: Buffer): (r: Buffer)
    ensures b.content <= r.content
    ensures r.content[|b.content|..] == HeaderLine
  {
    PerformAllAppends(b, HeaderPieces(HeaderColumns));
    HeaderPiecesText(HeaderColumns);
    PerformAll(b, HeaderPieces(HeaderColumns))
  }

  /** The `CSVWriter` constructor on a new file: the buffer holds exactly the header. */
  function NewCleanCsvWriter(): (b: Buffer)
    ensures b.content == HeaderLine
  {
    WriteCSVHeader(Buffer(""))
  }

  /** The header has 8 `ml_` columns, then 20 `se_` columns, and reads back as those 28 names. */
  lemma {:induction false} HeaderShape()
    ensures |HeaderColumns| == 28
    ensures forall i | 0 <= i < 8 :: StartsWith(HeaderColumns[i], "ml_")
    ensures forall i | 8 <= i < 28 :: StartsWith(HeaderColumns[i], "se_")
    ensures HeaderLine[|HeaderLine| - 1] == '\n'
    ensures Split(HeaderLine[..|HeaderLine| - 1], ',') == HeaderColumns
  {
    MailColumnsShape();
    EventColumnsShape();
    forall i | 0 <= i < 28
      ensures HeaderColumns[i] == if i < 8 then MailColumns[i] else EventColumns[i - 8]
    {
    }
    SplitJoin(HeaderColumns, ',');
    assert HeaderLine[..|HeaderLine| - 1] == Join(HeaderColumns, ",");
  }

  lemma {:induction false} MailColumnsShape()
    ensures |MailColumns| == 8 && Free(MailColumns, ',')
    ensures forall i | 0 <= i < 8 :: StartsWith(MailColumns[i], "ml_")
  {
  }

  lemma {:induction false} EventColumnsShape()
    ensures |EventColumns| == 20 && Free(EventColumns, ',')
    ensures forall i | 0 <= i < 20 :: StartsWith(EventColumns[i], "se_")
  {
    EventColumnsFree();
  }

  lemma {:induction false} EventColumnsFree()
    ensures Free(EventColumns, ',')
  {
  }

  /** Joining fields that avoid a character with a separator that avoids it gives a text that avoids it. */
  lemma {:induction false} JoinAvoids(fields: seq<string>, sep: string, c: char)
    requires Free(fields, c) && c !in sep
    ensures c !in Join(fields, sep)
  {
    if |fields| > 1 {
      JoinAvoids(fields[1..], sep, c);
    }
  }

  /** The appends of `CleanCSVWriter.writeToFile(fileInfo)`. */
  function RowPieces(fileInfo: seq<seq<string>>): seq<Piece>
    requires |fileInfo| >= 2
  {
    [Chars(Join(fileInfo[0], ","))]
    + (if |fileInfo[1]| > 0 then [Delimiter, Chars(Join(fileInfo[1], ","))] else [])
    + [LineEnd]
  }

  /**
   * What a reader of one appended row can rely on: it ends with a newline,
   * starts with the joined first list, has no other newline when the fields
   * have none, and (comma-free fields, non-empty first list) splits back into
   * exactly the fields of both lists.
   */
  predicate RowShape(row: string, first: seq<string>, second: seq<string>)
  {
    && |row| >= 1 && row[|row| - 1] == '\n'
    && StartsWith(row, Join(first, ","))
    && (Free(first, '\n') && Free(second, '\n') ==> '\n' !in row[..|row| - 1])
    && (|first| >= 1 && Free(first, ',') && Free(second, ',') ==>
          Split(row[..|row| - 1], ',') == first + second)
  }

  /**
   * `CleanCSVWriter.writeToFile(fileInfo)`: appends one row built from the
   * first two lists only; a comma joins them only when the second is non-empty.
   */
  function WriteToFile(b: Buffer, fileInfo: seq<seq<string>>): (r: Buffer)
    requires |fileInfo| >= 2
    ensures b.content <= r.content
    ensures RowShape(r.content[|b.content|..], fileInfo[0], fileInfo[1])
  {
    var ps := RowPieces(fileInfo);
    PerformAllAppends(b, ps);
    RowText(fileInfo);
    assert (b.content + PiecesText(ps))[|b.content|..] == PiecesText(ps);
    PerformAll(b, ps)
  }

  /** The text of `writeToFile`'s appends. */
  lemma {:induction false} RowPiecesText(fileInfo: seq<seq<string>>)
    requires |fileInfo| >= 2
    ensures PiecesText(RowPieces(fileInfo)) ==
      (if |fileInfo[1]| > 0 then Join(fileInfo[0], ",") + "," + Join(fileInfo[1], ",") else Join(fileInfo[0], ",")) + "\n"
  {
    var m, e := fileInfo[0], fileInfo[1];
    var ps := RowPieces(fileInfo);
    if |e| > 0 {
      assert ps == [Chars(Join(m, ","))] + ([Delimiter] + ([Chars(Join(e, ","))] + [LineEnd]));
      PiecesTextCons(Chars(Join(m, ",")), [Delimiter] + ([Chars(Join(e, ","))] + [LineEnd]));
      PiecesTextCons(Delimiter, [Chars(Join(e, ","))] + [LineEnd]);
      PiecesTextCons(Chars(Join(e, ",")), [LineEnd]);
      PiecesTextCons(LineEnd, []);
    } else {
      assert ps == [Chars(Join(m, ","))] + [LineEnd];
      PiecesTextCons(Chars(Join(m, ",")), [LineEnd]);
      PiecesTextCons(LineEnd, []);
    }
  }

  lemma {:induction false} RowText(fileInfo: seq<seq<string>>)
    requires |fileInfo| >= 2
    ensures RowShape(PiecesText(RowPieces(fileInfo)), fileInfo[0], fileInfo[1])
  {
    var m, e := fileInfo[0], fileInfo[1];
    var row := PiecesText(RowPieces(fileInfo));
    var body := if |e| > 0 then Join(m, ",") + "," + Join(e, ",") else Join(m, ",");
    RowPiecesText(fileInfo);
    assert row == body + "\n";
    assert row[..|row| - 1] == body;
    assert row[..|Join(m, ",")|] == Join(m, ",");
    if Free(m, '\n') && Free(e, '\n') {
      JoinAvoids(m, ",", '\n');
      JoinAvoids(e, ",", '\n');
    }
    if |m| >= 1 && Free(m, ',') && Free(e, ',') {
      if |e| > 0 {
        JoinAppend(m, e, ",");
      } else {
        assert m + e == m;
      }
      SplitJoin(m + e, ',');
    }
  }

  /** The four appends `Clean.handleRequest` makes for one mail/event pair. */
  function CleanRowPieces(mailInfo: seq<string>, eventInfo: seq<string>): seq<Piece>
  {
    [Chars(Join(mailInfo, ",")), Chars(","), Chars(Join(eventInfo, ",")), Chars("\n")]
  }

  /** The row `Clean.handleRequest` appends for one mail/event pair. */
  function ArchiveRow(mailInfo: seq<string>, eventInfo: seq<string>): string
  {
    PiecesText(CleanRowPieces(mailInfo, eventInfo))
  }

  lemma {:induction false} ArchiveRowText(mailInfo: seq<string>, eventInfo: seq<string>)
    ensures ArchiveRow(mailInfo, eventInfo) == Join(mailInfo, ",") + "," + Join(eventInfo, ",") + "\n"
  {
    var a, c := Join(mailInfo, ","), Join(eventInfo, ",");
    PiecesTextCons(Chars(a), [Chars(","), Chars(c), Chars("\n")]);
    PiecesTextCons(Chars(","), [Chars(c), Chars("\n")]);
    PiecesTextCons(Chars(c), [Chars("\n")]);
    PiecesTextCons(Chars("\n"), []);
  }

  /**
   * The inline appends of `Clean.handleRequest` write the same row that
   * `writeToFile([mailInfo, eventInfo])` would, whenever there is an event.
   */
  lemma {:induction false} InlineRowIsWriteToFile(b: Buffer, mailInfo: seq<string>, eventInfo: seq<string>)
    requires |eventInfo| > 0
    ensures PerformAll(b, CleanRowPieces(mailInfo, eventInfo)) == WriteToFile(b, [mailInfo, eventInfo])
  {
    var ps := RowPieces([mailInfo, eventInfo]);
    PerformAllAppends(b, CleanRowPieces(mailInfo, eventInfo));
    PerformAllAppends(b, ps);
    ArchiveRowText(mailInfo, eventInfo);
    RowPiecesText([mailInfo, eventInfo]);
    assert WriteToFile(b, [mailInfo, eventInfo]) == PerformAll(b, ps);
  }

  /**
   * An archive row built from 8 mail fields and 20 event fields reads back,
   * field by field, under the 28 header columns when no field holds a comma.
   */
  lemma {:induction false} ArchiveRowFields(mailInfo: seq<string>, eventInfo: seq<string>)
    requires |mailInfo| == |MailColumns| && |eventInfo| == |EventColumns|
    requires Free(mailInfo, ',') && Free(eventInfo, ',')
    ensures var row := ArchiveRow(mailInfo, eventInfo);
      && row[|row| - 1] == '\n'
      && Split(row[..|row| - 1], ',') == mailInfo + eventInfo
      && |Split(row[..|row| - 1], ',')| == |HeaderColumns|
  {
    var row := ArchiveRow(mailInfo, eventInfo);
    ArchiveRowText(mailInfo, eventInfo);
    assert row[..|row| - 1] == Join(mailInfo, ",") + "," + Join(eventInfo, ",");
    JoinAppend(mailInfo, eventInfo, ",");
    SplitJoin(mailInfo + eventInfo, ',');
  }
}

=== FILE: email_db.dfy ===
/**
 * The two tables the handlers touch, `mail_log` (parents) and
 * `sendgrid_event` (dependents sharing a `guid`), the queries they run as
 * pure filters, and how the database reads the `IN (...)` text the handler
 * splices together from a guid list.
 */
module EmailDb {
  import opened Wrappers
  import opened Seqs
  import opened Text
  import JavaInt

  /** The one `type` value that bypasses the archive. */
  const CustomEmailToVolunteer: string := "custom_email_to_volunteer"

  datatype MailLog = MailLog(
    id: int, email: string, guid: string, host: string, ref1: string, ref2: string,
    sentTime: int, mailType: string)

  datatype SendgridEvent = SendgridEvent(
    guid: string, sgEventId: string, asmGroupId: int, attempt: string, category: string,
    email: string, event: string, ip: string, reason: string, response: string,
    sgMessageId: string, smtpId: string, status: string, timestamp: int, tls: int,
    eventType: string, unsubscribeUrl: string, url: string, urlOffset: string,
    useragent: string, vmTimestamp: int)

  datatype Tables = Tables(mailLog: seq<MailLog>, sendgridEvent: seq<SendgridEvent>)

  /** The eight `mailInfo` strings, in column order; `tsToString` is the timestamp formatter. */
  function MailInfo(m: MailLog, tsToString: int -> string): (r: seq<string>)
    ensures |r| == 8 && r[2] == m.guid && r[7] == m.mailType
  {
    [JavaInt.IntToString(m.id), m.email, m.guid, m.host, m.ref1, m.ref2,
     tsToString(m.sentTime), m.mailType]
  }

  /** The twenty `eventInfo` strings, in column order (the event's own guid is not among them). */
  function EventInfo(e: SendgridEvent, tsToString: int -> string): (r: seq<string>)
    ensures |r| == 20 && r[0] == e.sgEventId
  {
    [e.sgEventId, JavaInt.IntToString(e.asmGroupId), e.attempt, e.category, e.email,
     e.event, e.ip, e.reason, e.response, e.sgMessageId, e.smtpId, e.status,
     tsToString(e.timestamp), JavaInt.IntToString(e.tls), e.eventType, e.unsubscribeUrl,
     e.url, e.urlOffset, e.useragent, tsToString(e.vmTimestamp)]
  }

  /** `sent_time < ? AND type != 'custom_email_to_volunteer'`. */
  predicate Archivable(m: MailLog, cutoff: int)
  {
    m.sentTime < cutoff && m.mailType != CustomEmailToVolunteer
  }

  /** `sent_time < ? AND type = 'custom_email_to_volunteer'`. */
  predicate SpecialExpired(m: MailLog, cutoff: int)
  {
    m.sentTime < cutoff && m.mailType == CustomEmailToVolunteer
  }

  /** The batch query and the special query split the rows older than the cutoff between them. */
  lemma {:induction false} ExpiredSplit(m: MailLog, cutoff: int)
    ensures m.sentTime < cutoff <==> Archivable(m, cutoff) || SpecialExpired(m, cutoff)
    ensures !(Archivable(m, cutoff) && SpecialExpired(m, cutoff))
  {
  }

  predicate SortedBySentTime(s: seq<MailLog>)
  {
    forall i, j | 0 <= i < j < |s| :: s[i].sentTime <= s[j].sentTime
  }

  /** Places `m` before the first row that is not earlier than it. */
  function InsertBySentTime(m: MailLog, s: seq<MailLog>): (r: seq<MailLog>)
    requires SortedBySentTime(s)
    ensures SortedBySentTime(r)
    ensures multiset(r) == multiset(s) + multiset{m}
    ensures forall i | 0 <= i < |r| :: r[i] == m || r[i] in s
  {
    if |s| == 0 || m.sentTime <= s[0].sentTime then [m] + s
    else
      var rest := InsertBySentTime(m, s[1..]);
      assert s == [s[0]] + s[1..];
      ConsSorted(s[0], rest, s[1..], m);
      [s[0]] + rest
  }

  /** A head no later than every element of a sorted tail, drawn from `t` or equal to `m`, keeps it sorted. */
  lemma {:induction false} ConsSorted(h: MailLog, rest: seq<MailLog>, t: seq<MailLog>, m: MailLog)
    requires SortedBySentTime(rest) && SortedBySentTime([h] + t) && h.sentTime < m.sentTime
    requires forall i | 0 <= i < |rest| :: rest[i] == m || rest[i] in t
    ensures SortedBySentTime([h] + rest)
  {
    forall j | 0 <= j < |rest|
      ensures h.sentTime <= rest[j].sentTime
    {
      if rest[j] != m {
        var k :| 0 <= k < |t| && t[k] == rest[j];
        assert ([h] + t)[0] == h && ([h] + t)[k + 1] == t[k];
      }
    }
    forall i, j | 0 <= i < j < |[h] + rest|
      ensures ([h] + rest)[i].sentTime <= ([h] + rest)[j].sentTime
    {
      if i > 0 {
        assert ([h] + rest)[i] == rest[i - 1];
      }
      assert ([h] + rest)[j] == rest[j - 1];
    }
  }

  /** `ORDER BY sent_time ASC`; rows with equal times keep their table order. */
  function SortBySentTime(s: seq<MailLog>): (r: seq<MailLog>)
    ensures SortedBySentTime(r)
    ensures multiset(r) == multiset(s)
  {
    if |s| == 0 then []
    else
      assert s == [s[0]] + s[1..];
      InsertBySentTime(s[0], SortBySentTime(s[1..]))
  }

  /** Every row the first `SELECT` may return, oldest first. */
  function Candidates(mail: seq<MailLog>, cutoff: int): (r: seq<MailLog>)
    ensures SortedBySentTime(r)
    ensures multiset(r) == multiset(Filter(mail, (m: MailLog) => Archivable(m, cutoff)))
  {
    SortBySentTime(Filter(mail, (m: MailLog) => Archivable(m, cutoff)))
  }

  /**
   * `SELECT * FROM mail_log WHERE sent_time < ? AND type != 'custom_email_to_volunteer'
   *  ORDER BY sent_time ASC LIMIT ?`: the oldest archivable rows, at most `limit` of them.
   */
  function SelectOldest(mail: seq<MailLog>, cutoff: int, limit: nat): (r: seq<MailLog>)
    ensures |r| <= limit
    ensures forall i | 0 <= i < |r| :: r[i] in mail && Archivable(r[i], cutoff)
    ensures SortedBySentTime(r)
    ensures multiset(r) <= multiset(mail)
    ensures |r| < limit ==> forall m | m in mail && Archivable(m, cutoff) :: m in r
    ensures forall m, i | m in mail && Archivable(m, cutoff) && m !in r && 0 <= i < |r| ::
              r[i].sentTime <= m.sentTime
    ensures var n := |Filter(mail, (m: MailLog) => Archivable(m, cutoff))|;
              |r| == if limit < n then limit else n
    ensures |r| < limit ==> multiset(r) == multiset(Filter(mail, (m: MailLog) => Archivable(m, cutoff)))
  {
    var sorted := Candidates(mail, cutoff);
    var k := if limit < |sorted| then limit else |sorted|;
    CandidatesMembers(mail, cutoff);
    SelectPrefixFacts(mail, cutoff, sorted, k);
    LimitCount(sorted, Filter(mail, (m: MailLog) => Archivable(m, cutoff)), limit);
    sorted[..k]
  }

  /**
   * `LIMIT` over a reordering of the matching rows returns `limit` of them,
   * or all of them, duplicates included, when fewer match.
   */
  lemma {:induction false} LimitCount<T>(sorted: seq<T>, all: seq<T>, limit: nat)
    requires multiset(sorted) == multiset(all)
    ensures var k := if limit < |sorted| then limit else |sorted|;
      && |sorted[..k]| == (if limit < |all| then limit else |all|)
      && (k < limit ==> multiset(sorted[..k]) == multiset(all))
  {
    assert |sorted| == |multiset(sorted)| == |multiset(all)| == |all|;
    if limit >= |sorted| {
      assert sorted[..|sorted|] == sorted;
    }
  }

  /** Membership in the candidates is membership in the table plus the filter. */
  lemma {:induction false} CandidatesMembers(mail: seq<MailLog>, cutoff: int)
    ensures multiset(Candidates(mail, cutoff)) <= multiset(mail)
    ensures forall m :: m in Candidates(mail, cutoff) <==> m in mail && Archivable(m, cutoff)
  {
    var all := Filter(mail, (m: MailLog) => Archivable(m, cutoff));
    FilterSubMultiset(mail, (m: MailLog) => Archivable(m, cutoff));
    forall m
      ensures m in Candidates(mail, cutoff) <==> m in all
    {
      assert m in Candidates(mail, cutoff) <==> m in multiset(Candidates(mail, cutoff));
      assert m in all <==> m in multiset(all);
    }
  }

  /**
   * The first `k` rows of a sorted list of the archivable rows are the
   * oldest ones, and taking all of them leaves none out.
   */
  lemma {:induction false} SelectPrefixFacts(mail: seq<MailLog>, cutoff: int, sorted: seq<MailLog>, k: nat)
    requires SortedBySentTime(sorted) && multiset(sorted) <= multiset(mail)
    requires forall m :: m in sorted <==> m in mail && Archivable(m, cutoff)
    requires k <= |sorted|
    ensures var r := sorted[..k];
      && (forall i | 0 <= i < |r| :: r[i] in mail && Archivable(r[i], cutoff))
      && SortedBySentTime(r)
      && multiset(r) <= multiset(mail)
      && (k == |sorted| ==> forall m | m in mail && Archivable(m, cutoff) :: m in r)
      && (forall m, i | m in mail && Archivable(m, cutoff) && m !in r && 0 <= i < |r| ::
            r[i].sentTime <= m.sentTime)
  {
    PrefixFacts(sorted, k);
    var r := sorted[..k];
    forall i | 0 <= i < |r|
      ensures r[i] in mail && Archivable(r[i], cutoff)
    {
      assert r[i] in sorted;
    }
    if k == |sorted| {
      assert r == sorted;
    }
  }

  /** A prefix of a sorted sequence is sorted, part of it, and not later than anything left out. */
  lemma {:induction false} PrefixFacts(s: seq<MailLog>, k: nat)
    requires SortedBySentTime(s) && k <= |s|
    ensures SortedBySentTime(s[..k])
    ensures multiset(s[..k]) <= multiset(s)
    ensures forall m, i | m in s && m !in s[..k] && 0 <= i < k :: s[i].sentTime <= m.sentTime
  {
    assert s == s[..k] + s[k..];
    assert multiset(s) == multiset(s[..k]) + multiset(s[k..]);
    forall m, i | m in s && m !in s[..k] && 0 <= i < k
      ensures s[i].sentTime <= m.sentTime
    {
      var j :| 0 <= j < |s| && s[j] == m;
      assert j >= k;
    }
  }

  lemma {:induction false} FilterSubMultiset<T(!new)>(s: seq<T>, keep: T -> bool)
    ensures multiset(Filter(s, keep)) <= multiset(s)
  {
    if |s| > 0 {
      FilterSubMultiset(s[1..], keep);
      assert s == [s[0]] + s[1..];
    }
  }

  /** The `guid` of each row, in order (`guidList`, `oppList`). */
  function Guids(rows: seq<MailLog>): (r: seq<string>)
    ensures |r| == |rows|
    ensures forall i | 0 <= i < |rows| :: r[i] == rows[i].guid
  {
    if |rows| == 0 then [] else [rows[0].guid] + Guids(rows[1..])
  }

  /** `SELECT * FROM sendgrid_event WHERE sendgrid_event.guid = ?`. */
  function EventsOf(events: seq<SendgridEvent>, guid: string): seq<SendgridEvent>
  {
    Filter(events, (e: SendgridEvent) => e.guid == guid)
  }

  /** The (parent, event) pairs of the join, parent by parent and each parent's events in table order. */
  function JoinPairs(parents: seq<MailLog>, events: seq<SendgridEvent>): seq<(MailLog, SendgridEvent)>
  {
    if |parents| == 0 then []
    else PairWith(parents[0], EventsOf(events, parents[0].guid)) + JoinPairs(parents[1..], events)
  }

  function PairWith(p: MailLog, es: seq<SendgridEvent>): (r: seq<(MailLog, SendgridEvent)>)
    ensures |r| == |es|
    ensures forall i | 0 <= i < |es| :: r[i] == (p, es[i])
  {
    if |es| == 0 then [] else [(p, es[0])] + PairWith(p, es[1..])
  }

  /** A pair is in the join exactly when its parent was selected and its event carries that parent's guid. */
  lemma {:induction false} JoinPairsMembers(parents: seq<MailLog>, events: seq<SendgridEvent>, p: MailLog, e: SendgridEvent)
    ensures (p, e) in JoinPairs(parents, events) <==> p in parents && e in events && e.guid == p.guid
  {
    if |parents| > 0 {
      JoinPairsMembers(parents[1..], events, p, e);
      var head := PairWith(parents[0], EventsOf(events, parents[0].guid));
      assert (p, e) in head <==> p == parents[0] && e in EventsOf(events, parents[0].guid);
      assert p in parents <==> p == parents[0] || p in parents[1..];
    }
  }

  /** A selected parent without events contributes no pair. */
  lemma {:induction false} ParentWithoutEventsHasNoPairs(parents: seq<MailLog>, events: seq<SendgridEvent>, p: MailLog)
    requires forall i | 0 <= i < |events| :: events[i].guid != p.guid
    ensures forall i | 0 <= i < |JoinPairs(parents, events)| :: JoinPairs(parents, events)[i].0 != p
  {
    forall i | 0 <= i < |JoinPairs(parents, events)|
      ensures JoinPairs(parents, events)[i].0 != p
    {
      var (q, e) := JoinPairs(parents, events)[i];
      JoinPairsMembers(parents, events, q, e);
    }
  }

  // ---- the `IN (...)` text --------------------------------------------------

  /** `list.stream().collect(Collectors.joining("','", "('", "')"))`. */
  function SqlInList(guids: seq<string>): string
  {
    "('" + Join(guids, "','") + "')"
  }

  /** A guid the database reads back as itself inside single quotes. */
  predicate PlainLiteral(g: string)
  {
    '\'' !in g && '\\' !in g
  }

  /** The characters of a quoted literal up to its closing quote, and the text after it. */
  function ReadLiteral(t: string): (r: Option<(string, string)>)
    ensures r.Some? ==> |r.value.1| < |t|
  {
    if |t| == 0 || t[0] == '\\' then None
    else if t[0] == '\'' then Some(("", t[1..]))
    else
      match ReadLiteral(t[1..])
      case None => None
      case Some((lit, rest)) => Some(([t[0]] + lit, rest))
  }

  /**
   * What `ReadLiteral` reads is a plain literal followed by the closing quote,
   * and it fails only on a text with a backslash or without a closing quote.
   */
  lemma {:induction false} ReadLiteralSplits(t: string)
    ensures var r := ReadLiteral(t);
      && (r.Some? ==> PlainLiteral(r.value.0) && t == r.value.0 + "'" + r.value.1)
      && (r.None? ==> '\\' in t || '\'' !in t)
    decreases |t|
  {
    if |t| > 0 && t[0] != '\\' && t[0] != '\'' {
      ReadLiteralSplits(t[1..]);
      assert t == [t[0]] + t[1..];
      match ReadLiteral(t[1..])
      case None =>
      case Some((lit, rest)) =>
        assert t == ([t[0]] + lit) + "'" + rest;
    }
  }

  /** A comma-separated list of quoted literals closed by `)`. */
  function ReadItems(t: string): Option<seq<string>>
    decreases |t|
  {
    if |t| == 0 || t[0] != '\'' then None
    else
      match ReadLiteral(t[1..])
      case None => None
      case Some((lit, rest)) =>
        if rest == ")" then Some([lit])
        else if |rest| > 0 && rest[0] == ',' then
          match ReadItems(rest[1..])
          case None => None
          case Some(more) => Some([lit] + more)
        else None
  }

  /**
   * The literals the database reads from an `IN` text; `None` is an SQL
   * syntax error. (Whitespace, doubled quotes and escapes are not read.)
   */
  function ReadInList(s: string): Option<seq<string>>
  {
    if |s| > 0 && s[0] == '(' then ReadItems(s[1..]) else None
  }

  lemma {:induction false} ReadLiteralPlain(g: string, rest: string)
    requires PlainLiteral(g)
    ensures ReadLiteral(g + "'" + rest) == Some((g, rest))
  {
    if |g| > 0 {
      assert (g + "'" + rest)[1..] == g[1..] + "'" + rest;
      ReadLiteralPlain(g[1..], rest);
      assert [g[0]] + g[1..] == g;
    } else {
      assert g + "'" + rest == "'" + rest;
    }
  }

  /** The joined text of two or more guids: the first literal, then `,` and the text of the rest. */
  lemma {:induction false} InListTextCons(guids: seq<string>)
    requires |guids| > 1
    ensures "'" + Join(guids, "','") + "')" == "'" + (guids[0] + "'" + ("," + ("'" + Join(guids[1..], "','") + "')")))
  {
    var j := Join(guids[1..], "','");
    assert Join(guids, "','") == guids[0] + "','" + j;
    assert "','" + j + "')" == "'" + ("," + ("'" + j + "')"));
  }

  /** A last literal, closed by `)`. */
  lemma {:induction false} ReadItemsLast(g: string)
    requires PlainLiteral(g)
    ensures ReadItems("'" + (g + "'" + ")")) == Some([g])
  {
    ReadLiteralPlain(g, ")");
    assert ("'" + (g + "'" + ")"))[1..] == g + "'" + ")";
  }

  /** A literal followed by `,` and further items. */
  lemma {:induction false} ReadItemsCons(g: string, tail: string)
    requires PlainLiteral(g) && ReadItems(tail).Some?
    ensures ReadItems("'" + (g + "'" + ("," + tail))) == Some([g] + ReadItems(tail).value)
  {
    ReadLiteralPlain(g, "," + tail);
    assert ("'" + (g + "'" + ("," + tail)))[1..] == g + "'" + ("," + tail);
    assert ("," + tail)[1..] == tail;
  }

  lemma {:induction false} ReadItemsJoin(guids: seq<string>)
    requires forall i | 0 <= i < |guids| :: PlainLiteral(guids[i])
    ensures ReadItems("'" + Join(guids, "','") + "')") == Some(if |guids| == 0 then [""] else guids)
  {
    if |guids| == 0 {
      ReadItemsLast("");
      assert "'" + Join(guids, "','") + "')" == "'" + ("" + "'" + ")");
    } else if |guids| == 1 {
      ReadItemsLast(guids[0]);
      assert "'" + Join(guids, "','") + "')" == "'" + (guids[0] + "'" + ")");
      assert [guids[0]] == guids;
    } else {
      ReadItemsJoin(guids[1..]);
      ReadItemsCons(guids[0], "'" + Join(guids[1..], "','") + "')");
      InListTextCons(guids);
      assert [guids[0]] + guids[1..] == guids;
    }
  }

  /**
   * The database reads the spliced text as the guid list itself, except that
   * an empty list becomes `('')`, the one-element list holding the empty guid.
   */
  lemma {:induction false} SqlInListReadsBack(guids: seq<string>)
    requires forall i | 0 <= i < |guids| :: PlainLiteral(guids[i])
    ensures ReadInList(SqlInList(guids)) == Some(if |guids| == 0 then [""] else guids)
  {
    ReadItemsJoin(guids);
    assert SqlInList(guids)[1..] == "'" + Join(guids, "','") + "')";
  }

  /** `DELETE FROM sendgrid_event WHERE guid IN (literals)`: the rows that stay. */
  function EventsNotIn(events: seq<SendgridEvent>, literals: seq<string>): seq<SendgridEvent>
  {
    Filter(events, (e: SendgridEvent) => e.guid !in literals)
  }

  /** `DELETE FROM mail_log WHERE guid IN (literals)`: the rows that stay. */
  function MailNotIn(mail: seq<MailLog>, literals: seq<string>): seq<MailLog>
  {
    Filter(mail, (m: MailLog) => m.guid !in literals)
  }
}

=== FILE: execution.dfy ===
/**
 * What both handlers share: the ordered trace of effects they cause on the
 * database, the local file and the object store; the state a run carries;
 * fault injection for the checked exceptions the handlers catch; and the
 * strings a run returns.
 */
module Execution {
  import opened Wrappers
  import opened Text
  import opened EmailDb
  import CsvWriter
  import JavaInt

  datatype Effect =
    | Connect
    | CreateFile(path: string)
    | Append(text: string)
    | SelectMail(cutoff: int, limit: int)
    | SelectEvents(guid: string)
    | FlushClose
    | Upload(bucket: string, key: string, content: string)
    | SetForeignKeyChecks(enabled: bool)
    | DeleteEventsWhereGuidIn(inList: string)
    | DeleteMailWhereGuidIn(inList: string)
    | SelectSpecial(cutoff: int)
    | DeleteSpecialMail(cutoff: int)
    | DeleteEventsBefore(cutoff: int)
    | DeleteMailBefore(cutoff: int)
    | CloseConnection
  {
    /** The effects that remove rows from the live tables. */
    predicate IsDelete()
    {
      DeleteEventsWhereGuidIn? || DeleteMailWhereGuidIn? || DeleteSpecialMail?
      || DeleteEventsBefore? || DeleteMailBefore?
    }
  }

  /** The state of a run: the tables, the effects so far, the local file, the two delete counters. */
  datatype Exec = Exec(
    tables: Tables, trace: seq<Effect>, file: CsvWriter.Buffer,
    deletedEvents: nat, deletedMail: nat)

  /** The state a step left, whether it completed or threw. */
  function State(r: Result<Exec, Exec>): Exec
  {
    if r.Ok? then r.value else r.error
  }

  /** How many effects of `t` remove rows. */
  function DeleteCount(t: seq<Effect>): nat
  {
    if |t| == 0 then 0 else DeleteCount(t[..|t| - 1]) + (if t[|t| - 1].IsDelete() then 1 else 0)
  }

  /**
   * Performs `e`, unless `failAt` names this position of the trace: then the
   * operation throws a caught exception (SQLException, IOException,
   * ClassNotFoundException) and nothing is recorded.
   */
  function Attempt(x: Exec, e: Effect, failAt: Option<nat>): (r: Result<Exec, Exec>)
    ensures r.Ok? <==> failAt != Some(|x.trace|)
    ensures r.Ok? ==> r.value == x.(trace := x.trace + [e])
    ensures r.Ok? ==> DeleteCount(r.value.trace) == DeleteCount(x.trace) + (if e.IsDelete() then 1 else 0)
    ensures r.Err? ==> r.error == x
  {
    assert (x.trace + [e])[..|x.trace|] == x.trace;
    if failAt == Some(|x.trace|) then Err(x) else Ok(x.(trace := x.trace + [e]))
  }

  predicate NoDeletes(t: seq<Effect>)
  {
    forall i | 0 <= i < |t| :: !t[i].IsDelete()
  }

  predicate NoUploads(t: seq<Effect>)
  {
    forall i | 0 <= i < |t| :: !t[i].Upload?
  }

  /** A trace has no delete exactly when it counts none. */
  lemma {:induction false} NoDeletesCount(t: seq<Effect>)
    ensures NoDeletes(t) <==> DeleteCount(t) == 0
  {
    if |t| > 0 {
      var init := t[..|t| - 1];
      NoDeletesCount(init);
      assert forall i | 0 <= i < |init| :: init[i] == t[i];
    }
  }

  /**
   * Archive-then-delete: either nothing was deleted, or `upload` directly
   * follows the closing of the file and no delete happened before it.
   */
  predicate ArchivedBeforeDeleted(t: seq<Effect>, upload: Effect)
  {
    NoDeletes(t)
    || exists u | 1 <= u < |t| :: t[u] == upload && t[u - 1] == FlushClose && NoDeletes(t[..u])
  }

  /**
   * How a handler invocation ends: the `return` at the end of the `try`
   * block with the two delete counts and the text after them, the `return`
   * of the `catch` block, or an exception no clause catches.
   */
  datatype Outcome =
    | Success(numSendgrid: nat, numMailLog: nat, suffix: string)
    | Caught
    | Thrown(exception: string)
  {
    /** The string the handler returns. */
    function Text(): string
      requires !Thrown?
    {
      if Success? then DeleteSummary(numSendgrid, numMailLog) + suffix else ErrorMessage
    }
  }

  /** The end of a handler invocation: what it returned or threw, the tables, the effects, the archive text. */
  datatype Run = Run(outcome: Outcome, tables: Tables, trace: seq<Effect>, file: string)

  /** The fixed string of the `catch` block. */
  const ErrorHead: string := "ERROR: "
  const ErrorMessage: string := ErrorHead + "Database connection error or parsing error"

  /** `Integer.parseInt` on a missing or malformed value: not among the caught exceptions. */
  const NumberFormatException: string := "java.lang.NumberFormatException"

  /** String concatenation of a possibly-null environment value. */
  function JavaString(v: Option<string>): string
  {
    if v.None? then "null" else v.value
  }

  const SummaryHead: string := "SUCCESS: "
  const SummaryMiddle: string := " rows deleted from sendgrid_event table and "
  const SummaryTail: string := " rows deleted from mail_log table"

  /** The part of the success string both handlers share. */
  function DeleteSummary(numSendgrid: nat, numMailLog: nat): string
  {
    SummaryHead + JavaInt.NatToString(numSendgrid) + SummaryMiddle + JavaInt.NatToString(numMailLog) + SummaryTail
  }

  /** The longest run of digits at the start of `s`. */
  function LeadingDigits(s: string): (r: string)
    ensures |r| <= |s| && r == s[..|r|]
    ensures JavaInt.AllDigits(r)
    ensures |r| < |s| ==> !JavaInt.IsDigit(s[|r|])
  {
    if |s| == 0 || !JavaInt.IsDigit(s[0]) then ""
    else [s[0]] + LeadingDigits(s[1..])
  }

  /** Reads `prefix`, then a decimal count; gives the count and the text after it. */
  function ReadCount(text: string, prefix: string): Option<(nat, string)>
  {
    if !StartsWith(text, prefix) then None
    else
      var t := text[|prefix|..];
      var d := LeadingDigits(t);
      if |d| == 0 then None else Some((JavaInt.DigitsValue(d), t[|d|..]))
  }

  /** A reader of a success string: the two counts it reports, if it is one. */
  function ReadDeleteSummary(text: string): Option<(nat, nat)>
  {
    match ReadCount(text, SummaryHead)
    case None => None
    case Some((numSendgrid, t)) =>
      match ReadCount(t, SummaryMiddle)
      case None => None
      case Some((numMailLog, t')) =>
        if StartsWith(t', SummaryTail) then Some((numSendgrid, numMailLog)) else None
  }

  lemma {:induction false} ReadCountBack(prefix: string, n: nat, rest: string)
    requires |rest| > 0 && rest[0] == ' '
    ensures ReadCount(prefix + (JavaInt.NatToString(n) + rest), prefix) == Some((n, rest))
  {
    var d := JavaInt.NatToString(n);
    var text := prefix + (d + rest);
    assert text[|prefix|..] == d + rest;
    LeadingDigitsOfRun(d, rest);
    assert (d + rest)[|d|..] == rest;
  }

  /** A run of digits followed by a non-digit is exactly what LeadingDigits takes. */
  lemma {:induction false} LeadingDigitsOfRun(d: string, rest: string)
    requires JavaInt.AllDigits(d)
    requires |rest| > 0 && !JavaInt.IsDigit(rest[0])
    ensures LeadingDigits(d + rest) == d
  {
    if |d| == 0 {
      assert d + rest == rest;
    } else {
      assert (d + rest)[1..] == d[1..] + rest;
      LeadingDigitsOfRun(d[1..], rest);
      assert [d[0]] + d[1..] == d;
    }
  }

  /** A success string, whatever follows it, reports back exactly the two counts it was built from. */
  lemma {:induction false} ReadDeleteSummaryBack(numSendgrid: nat, numMailLog: nat, tail: string)
    ensures ReadDeleteSummary(DeleteSummary(numSendgrid, numMailLog) + tail) == Some((numSendgrid, numMailLog))
  {
    var a, b := JavaInt.NatToString(numSendgrid), JavaInt.NatToString(numMailLog);
    var rest2 := SummaryTail + tail;
    var rest1 := SummaryMiddle + (b + rest2);
    Regroup(SummaryHead, a, SummaryMiddle, b, SummaryTail, tail);
    assert rest1[0] == ' ' by { assert rest1[0] == SummaryMiddle[0]; }
    assert rest2[0] == ' ' by { assert rest2[0] == SummaryTail[0]; }
    ReadCountBack(SummaryHead, numSendgrid, rest1);
    ReadCountBack(SummaryMiddle, numMailLog, rest2);
    assert rest2[..|SummaryTail|] == SummaryTail;
  }

  lemma {:induction false} Regroup<T>(a: seq<T>, b: seq<T>, c: seq<T>, d: seq<T>, e: seq<T>, t: seq<T>)
    ensures a + b + c + d + e + t == a + (b + (c + (d + (e + t))))
  {
    assert a + b + c + d + e + t == a + (b + c + d + e + t);
    assert b + c + d + e + t == b + (c + d + e + t);
    assert c + d + e + t == c + (d + (e + t));
  }

  /** The error string is never read as a success. */
  lemma {:induction false} ErrorIsNoSummary()
    ensures ReadDeleteSummary(ErrorMessage) == None
  {
    assert ErrorMessage[0] == ErrorHead[0] == 'E';
    assert SummaryHead[0] == 'S';
    assert ErrorMessage[..|SummaryHead|][0] != SummaryHead[0];
  }

  /**
   * A reader of the returned string tells the two endings apart: a success
   * string reports back exactly its two counts, and the error string reports
   * nothing.
   */
  lemma {:induction false} OutcomeTextReadsBack(o: Outcome)
    requires !o.Thrown?
    ensures o.Success? ==> ReadDeleteSummary(o.Text()) == Some((o.numSendgrid, o.numMailLog))
    ensures o.Caught? ==> ReadDeleteSummary(o.Text()) == None
  {
    if o.Success? {
      ReadDeleteSummaryBack(o.numSendgrid, o.numMailLog, o.suffix);
    } else {
      ErrorIsNoSummary();
    }
  }
}

=== FILE: java_int.dfy ===
/**
 * Java's 32-bit `int` as it appears at the edges of the handlers:
 * `Integer.parseInt` for configuration values and `Integer.toString`
 * (string concatenation) for counts and ids. Only ASCII digits are modelled.
 */
module JavaInt {
  import opened Wrappers

  const MinInt: int := -0x8000_0000
  const MaxInt: int := 0x7fff_ffff

  predicate IsInt32(n: int)
  {
    MinInt <= n <= MaxInt
  }

  predicate IsDigit(c: char)
  {
    '0' <= c <= '9'
  }

  predicate AllDigits(s: string)
  {
    forall i | 0 <= i < |s| :: IsDigit(s[i])
  }

  /** The number a run of decimal digits denotes (leading zeros allowed). */
  function DigitsValue(s: string): nat
    requires AllDigits(s)
  {
    if |s| == 0 then 0
    else 10 * DigitsValue(s[..|s| - 1]) + (s[|s| - 1] as int - '0' as int)
  }

  function DigitChar(d: nat): (c: char)
    requires d < 10
    ensures IsDigit(c) && c as int - '0' as int == d
  {
    (d + '0' as int) as char
  }

  /** Decimal rendering of a natural number, without leading zeros. */
  function NatToString(n: nat): (r: string)
    ensures |r| >= 1 && AllDigits(r)
    ensures DigitsValue(r) == n
  {
    if n < 10 then [DigitChar(n)]
    else
      var prefix := NatToString(n / 10);
      var r := prefix + [DigitChar(n % 10)];
      assert r[..|r| - 1] == prefix;
      r
  }

  /** `Integer.toString(n)` (and `"" + n`). */
  function IntToString(n: int): string
  {
    if n < 0 then "-" + NatToString(-n) else NatToString(n)
  }

  /**
   * `Integer.parseInt(s)`: an optional `-` or `+`, then at least one digit,
   * denoting a value in the 32-bit range. `None` (for `null`, the empty text,
   * a lone sign, a non-digit or an overflow) is the NumberFormatException.
   */
  function ParseInt(s: Option<string>): (r: Option<int>)
    ensures r.Some? ==> IsInt32(r.value)
    ensures r.Some? ==> s.Some? && |s.value| > 0
    ensures r.Some? ==> forall i | 0 < i < |s.value| :: IsDigit(s.value[i])
  {
    if s.None? || |s.value| == 0 then None
    else
      var t := s.value;
      var digits := if t[0] == '-' || t[0] == '+' then t[1..] else t;
      if |digits| == 0 || !AllDigits(digits) then None
      else
        var v: int := if t[0] == '-' then 0 - DigitsValue(digits) as int else DigitsValue(digits);
        if IsInt32(v) then Some(v) else None
  }

  /** A leading zero does not change the value of a digit run. */
  lemma {:induction false} DigitsValueLeadingZero(s: string)
    requires AllDigits(s)
    ensures AllDigits("0" + s) && DigitsValue("0" + s) == DigitsValue(s)
    decreases |s|
  {
    var t := "0" + s;
    assert forall i | 0 <= i < |t| :: IsDigit(t[i]) by {
      forall i | 0 <= i < |t| ensures IsDigit(t[i]) {
        if i > 0 { assert t[i] == s[i - 1]; }
      }
    }
    if |s| > 0 {
      var init := s[..|s| - 1];
      assert t[..|t| - 1] == "0" + init;
      assert t[|t| - 1] == s[|s| - 1];
      DigitsValueLeadingZero(init);
    }
  }

  /** `+` in front of the digits parses to the same result as the bare digits. */
  lemma {:induction false} ParseIntPlus(s: string)
    requires |s| > 0 && AllDigits(s)
    ensures ParseInt(Some("+" + s)) == ParseInt(Some(s))
  {
    assert ("+" + s)[1..] == s;
    assert IsDigit(s[0]);
  }

  /** `-` in front of digits that parse negates their value (so `-0` is 0). */
  lemma {:induction false} ParseIntMinus(s: string)
    requires |s| > 0 && AllDigits(s) && ParseInt(Some(s)).Some?
    ensures ParseInt(Some("-" + s)) == Some(-ParseInt(Some(s)).value)
  {
    assert ("-" + s)[1..] == s;
    assert IsDigit(s[0]);
  }

  /**
   * A leading zero after the optional sign parses to the same result; with
   * `ParseIntPlus`, `ParseIntMinus` and `ParseIntToString` this fixes the
   * value of every accepted text.
   */
  lemma {:induction false} ParseIntLeadingZero(sign: string, s: string)
    requires sign == "" || sign == "+" || sign == "-"
    requires |s| > 0 && AllDigits(s)
    ensures ParseInt(Some(sign + "0" + s)) == ParseInt(Some(sign + s))
  {
    DigitsValueLeadingZero(s);
    assert IsDigit(s[0]);
    if sign == "" {
      assert sign + "0" + s == "0" + s;
      assert sign + s == s;
    } else {
      assert (sign + "0" + s)[1..] == "0" + s;
      assert (sign + s)[1..] == s;
    }
  }

  /**
   * Every optional sign followed by a digit run is accepted exactly when its
   * value fits in 32 bits, and then denotes that value; with the contract of
   * `ParseInt` (an accepted text has this shape) this decides every text.
   */
  lemma {:induction false} ParseIntDigits(sign: string, s: string)
    requires sign == "" || sign == "+" || sign == "-"
    requires |s| > 0 && AllDigits(s)
    ensures var v: int := if sign == "-" then 0 - DigitsValue(s) as int else DigitsValue(s);
      ParseInt(Some(sign + s)) == if IsInt32(v) then Some(v) else None
  {
    assert IsDigit(s[0]);
    if sign == "" {
      assert sign + s == s;
    } else {
      assert (sign + s)[0] == sign[0];
      assert (sign + s)[1..] == s;
    }
  }

  /** Every 32-bit value survives rendering and parsing back. */
  lemma {:induction false} ParseIntToString(n: int)
    requires IsInt32(n)
    ensures ParseInt(Some(IntToString(n))) == Some(n)
  {
    var t := IntToString(n);
    if n < 0 {
      assert t[1..] == NatToString(-n);
    } else {
      assert t == NatToString(n);
      assert IsDigit(t[0]);
    }
  }
}

=== FILE: legacy_clean.dfy ===
/**
 * `emailcleanup.Clean.handleRequest`: the earlier handler, which deletes
 * every `sendgrid_event` row and every `mail_log` row strictly older than
 * the cutoff, with no archive and no special category.
 */
module LegacyClean {
  import opened Wrappers
  import opened Seqs
  import opened EmailDb
  import opened Execution
  import CsvWriter
  import JavaInt
  import Timestamps

  /** The events `DELETE FROM sendgrid_event WHERE timestamp < ?` leaves. */
  function EventsFrom(events: seq<SendgridEvent>, cutoff: int): seq<SendgridEvent>
  {
    Filter(events, (e: SendgridEvent) => e.timestamp >= cutoff)
  }

  /** The mail `DELETE FROM mail_log WHERE sent_time < ?` leaves. */
  function MailFrom(mail: seq<MailLog>, cutoff: int): seq<MailLog>
  {
    Filter(mail, (m: MailLog) => m.sentTime >= cutoff)
  }

  /** The events older than the cutoff: what the first delete removes. */
  function EventsBefore(events: seq<SendgridEvent>, cutoff: int): seq<SendgridEvent>
  {
    Filter(events, (e: SendgridEvent) => e.timestamp < cutoff)
  }

  /** The mail older than the cutoff: what the second delete removes. */
  function MailBefore(mail: seq<MailLog>, cutoff: int): seq<MailLog>
  {
    Filter(mail, (m: MailLog) => m.sentTime < cutoff)
  }

  lemma {:induction false} EventsSplitAtCutoff(events: seq<SendgridEvent>, cutoff: int)
    ensures |EventsFrom(events, cutoff)| + |EventsBefore(events, cutoff)| == |events|
  {
    FilterPartition(events, (e: SendgridEvent) => e.timestamp >= cutoff, (e: SendgridEvent) => e.timestamp < cutoff);
  }

  lemma {:induction false} MailSplitAtCutoff(mail: seq<MailLog>, cutoff: int)
    ensures |MailFrom(mail, cutoff)| + |MailBefore(mail, cutoff)| == |mail|
  {
    FilterPartition(mail, (m: MailLog) => m.sentTime >= cutoff, (m: MailLog) => m.sentTime < cutoff);
  }

  /** What the handler asks of the database, in order, when nothing fails. */
  function Steps(cutoff: int): seq<Effect>
  {
    [Connect, SetForeignKeyChecks(false), DeleteEventsBefore(cutoff), DeleteMailBefore(cutoff),
     SetForeignKeyChecks(true), CloseConnection]
  }

  /**
   * What a completed statement does to the tables: each delete keeps the
   * rows at or after its cutoff and records how many rows it removed
   * (`executeUpdate`'s result); the other statements leave the tables alone.
   */
  function Apply(x: Exec, e: Effect): Exec
  {
    match e
    case DeleteEventsBefore(c) =>
      var events := EventsFrom(x.tables.sendgridEvent, c);
      x.(tables := x.tables.(sendgridEvent := events), deletedEvents := |x.tables.sendgridEvent| - |events|)
    case DeleteMailBefore(c) =>
      var mail := MailFrom(x.tables.mailLog, c);
      x.(tables := x.tables.(mailLog := mail), deletedMail := |x.tables.mailLog| - |mail|)
    case _ => x
  }

  /** Record and apply every statement of `steps`, in order. */
  function ApplyAll(x: Exec, steps: seq<Effect>): (y: Exec)
    ensures y.trace == x.trace + steps
    decreases |steps|
  {
    if |steps| == 0 then x
    else
      var y := ApplyAll(Apply(x.(trace := x.trace + [steps[0]]), steps[0]), steps[1..]);
      assert x.trace + [steps[0]] + steps[1..] == x.trace + steps;
      y
  }

  lemma {:induction false} ApplyAllSnoc(x: Exec, steps: seq<Effect>, e: Effect)
    ensures ApplyAll(x, steps + [e]) == Apply(ApplyAll(x, steps).(trace := x.trace + steps + [e]), e)
    decreases |steps|
  {
    if |steps| == 0 {
      assert steps + [e] == [e];
    } else {
      var x1 := Apply(x.(trace := x.trace + [steps[0]]), steps[0]);
      assert (steps + [e])[1..] == steps[1..] + [e];
      ApplyAllSnoc(x1, steps[1..], e);
      assert x1.trace + steps[1..] == x.trace + steps;
    }
  }

  /**
   * Run `steps` inside the `try` block: each statement either throws, and
   * the run stops with the statements before it done, or completes.
   */
  function RunSteps(x: Exec, steps: seq<Effect>, failAt: Option<nat>): (r: Result<Exec, Exec>)
    ensures var n := |State(r).trace| - |x.trace|;
      && |x.trace| <= |State(r).trace| <= |x.trace| + |steps|
      && State(r) == ApplyAll(x, steps[..n])
    ensures r.Ok? ==> |r.value.trace| == |x.trace| + |steps|
    ensures failAt.None? ==> r.Ok?
    decreases |steps|
  {
    if |steps| == 0 then Ok(x)
    else
      var y :- Attempt(x, steps[0], failAt);
      var r := RunSteps(Apply(y, steps[0]), steps[1..], failAt);
      assert steps[..|State(r).trace| - |x.trace|][1..] == steps[1..][..|State(r).trace| - |x.trace| - 1];
      r
  }

  /** The first `n` statements upload nothing, and delete once they reach the third. */
  lemma {:induction false} StepsEffects(cutoff: int, n: nat)
    requires n <= |Steps(cutoff)|
    ensures NoUploads(Steps(cutoff)[..n])
    ensures NoDeletes(Steps(cutoff)[..n]) <==> n <= 2
  {
    var t := Steps(cutoff)[..n];
    if n > 2 {
      assert t[2].IsDelete();
    }
  }

  /**
   * The tables and counters once the first `n` statements of a run that
   * started from `x` have completed: unchanged before the first delete,
   * then the old events gone, then the old mail too.
   */
  predicate DoneUpTo(db: Tables, cutoff: int, n: nat, y: Exec)
  {
    && (n <= 2 ==> y.tables == db && y.deletedEvents == 0 && y.deletedMail == 0)
    && (n == 3 ==> y.tables == db.(sendgridEvent := EventsFrom(db.sendgridEvent, cutoff))
                   && y.deletedEvents == |db.sendgridEvent| - |y.tables.sendgridEvent| && y.deletedMail == 0)
    && (n >= 4 ==> y.tables == Tables(MailFrom(db.mailLog, cutoff), EventsFrom(db.sendgridEvent, cutoff))
                   && y.deletedEvents == |db.sendgridEvent| - |y.tables.sendgridEvent|
                   && y.deletedMail == |db.mailLog| - |y.tables.mailLog|)
  }

  /** The three table states a run can leave, and what the counters hold once both deletes ran. */
  lemma {:induction false} DoneUpToCases(db: Tables, cutoff: int, n: nat, y: Exec)
    requires DoneUpTo(db, cutoff, n, y)
    ensures n <= 2 ==> y.tables == db
    ensures n >= 4 ==>
      && y.tables == Tables(MailFrom(db.mailLog, cutoff), EventsFrom(db.sendgridEvent, cutoff))
      && y.deletedEvents == |db.sendgridEvent| - |y.tables.sendgridEvent|
      && y.deletedMail == |db.mailLog| - |y.tables.mailLog|
    ensures || y.tables == db
            || y.tables == db.(sendgridEvent := EventsFrom(db.sendgridEvent, cutoff))
            || y.tables == Tables(MailFrom(db.mailLog, cutoff), EventsFrom(db.sendgridEvent, cutoff))
  {
  }

  /** Applying the first `n` statements does what `DoneUpTo` says. */
  lemma {:induction false} StepsApplied(x: Exec, cutoff: int, n: nat)
    requires n <= |Steps(cutoff)| && x.deletedEvents == 0 && x.deletedMail == 0
    ensures DoneUpTo(x.tables, cutoff, n, ApplyAll(x, Steps(cutoff)[..n]))
  {
    if n > 0 {
      var steps := Steps(cutoff);
      var e := steps[n - 1];
      StepsApplied(x, cutoff, n - 1);
      assert steps[..n] == steps[..n - 1] + [e];
      ApplyAllSnoc(x, steps[..n - 1], e);
      assert e == (if n == 3 then DeleteEventsBefore(cutoff) else if n == 4 then DeleteMailBefore(cutoff) else e);
      assert n != 3 && n != 4 ==> !e.DeleteEventsBefore? && !e.DeleteMailBefore?;
    }
  }

  /**
   * Connect, disable key checks, the two deletes, re-enable key checks, close.
   * The trace grows by a prefix of those statements, and the tables reflect
   * the deletes in it.
   */
  function Purge(db: Tables, cutoff: int, failAt: Option<nat>): (r: Result<Exec, Exec>)
    ensures var n := |State(r).trace|;
      && n <= |Steps(cutoff)| && State(r).trace == Steps(cutoff)[..n]
      && NoUploads(State(r).trace) && (NoDeletes(State(r).trace) <==> n <= 2)
      && DoneUpTo(db, cutoff, n, State(r))
    ensures NoDeletes(State(r).trace) ==> State(r).tables == db
    ensures r.Ok? ==>
      && |r.value.trace| == |Steps(cutoff)|
      && r.value.tables == Tables(MailFrom(db.mailLog, cutoff), EventsFrom(db.sendgridEvent, cutoff))
      && r.value.deletedEvents == |db.sendgridEvent| - |r.value.tables.sendgridEvent|
      && r.value.deletedMail == |db.mailLog| - |r.value.tables.mailLog|
    ensures r.Err? ==>
      && failAt.Some?
      && (|| r.error.tables == db
          || r.error.tables == db.(sendgridEvent := EventsFrom(db.sendgridEvent, cutoff))
          || r.error.tables == Tables(MailFrom(db.mailLog, cutoff), EventsFrom(db.sendgridEvent, cutoff)))
    ensures failAt.None? ==> r.Ok?
  {
    var x := Exec(db, [], CsvWriter.Buffer(""), 0, 0);
    var r := RunSteps(x, Steps(cutoff), failAt);
    StepsEffects(cutoff, |State(r).trace|);
    StepsApplied(x, cutoff, |State(r).trace|);
    DoneUpToCases(db, cutoff, |State(r).trace|, State(r));
    r
  }

  /**
   * The `try` block once the cutoff is known. It uploads and archives
   * nothing; a caught exception leaves the tables as they were, with the
   * event delete done, or with both deletes done.
   */
  function Sweep(db: Tables, cutoff: int, failAt: Option<nat>): (r: Run)
    ensures !r.outcome.Thrown?
    ensures NoUploads(r.trace) && r.file == ""
    ensures NoDeletes(r.trace) ==> r.tables == db
    ensures r.outcome.Success? ==>
      && r.tables == Tables(MailFrom(db.mailLog, cutoff), EventsFrom(db.sendgridEvent, cutoff))
      && r.outcome.numSendgrid == |db.sendgridEvent| - |r.tables.sendgridEvent|
      && r.outcome.numMailLog == |db.mailLog| - |r.tables.mailLog|
      && r.outcome.suffix == ""
    ensures r.outcome.Caught? ==>
      && failAt.Some?
      && (|| r.tables == db
          || r.tables == db.(sendgridEvent := EventsFrom(db.sendgridEvent, cutoff))
          || r.tables == Tables(MailFrom(db.mailLog, cutoff), EventsFrom(db.sendgridEvent, cutoff)))
  {
    match Purge(db, cutoff, failAt)
    case Ok(x) => Run(Success(x.deletedEvents, x.deletedMail, ""), x.tables, x.trace, "")
    case Err(x) => Run(Caught, x.tables, x.trace, "")
  }

  /**
   * The handler, at instant `now`, with `offset` the `OFFSET` environment value
   * and `failAt` the trace position of an operation that throws a caught exception.
   * A malformed offset throws before anything happens.
   */
  function HandleRequest(offset: Option<string>, now: int, db: Tables, failAt: Option<nat>): (r: Run)
    ensures r.outcome.Thrown? <==> JavaInt.ParseInt(offset).None?
    ensures r.outcome.Thrown? ==> r.tables == db && r.trace == []
    ensures NoUploads(r.trace) && r.file == ""
    ensures NoDeletes(r.trace) ==> r.tables == db
    ensures r.outcome.Success? ==>
      var cutoff := Timestamps.ConvertToTimestamp(offset, now).value;
      && r.tables == Tables(MailFrom(db.mailLog, cutoff), EventsFrom(db.sendgridEvent, cutoff))
      && r.outcome == Success(|db.sendgridEvent| - |r.tables.sendgridEvent|, |db.mailLog| - |r.tables.mailLog|, "")
    ensures r.outcome.Caught? ==>
      var cutoff := Timestamps.ConvertToTimestamp(offset, now).value;
      && failAt.Some?
      && (|| r.tables == db
          || r.tables == db.(sendgridEvent := EventsFrom(db.sendgridEvent, cutoff))
          || r.tables == Tables(MailFrom(db.mailLog, cutoff), EventsFrom(db.sendgridEvent, cutoff)))
  {
    match Timestamps.ConvertToTimestamp(offset, now)
    case None => Run(Thrown(NumberFormatException), db, [], "")
    case Some(cutoff) => Sweep(db, cutoff, failAt)
  }

  /**
   * After a successful run no row of either table is older than the cutoff,
   * whatever its type, every row at or after the cutoff is still there, and
   * the reported counts are the numbers of older rows.
   */
  lemma {:induction false} SuccessfulSweep(offset: Option<string>, now: int, db: Tables, failAt: Option<nat>)
    ensures var r := HandleRequest(offset, now, db, failAt);
      r.outcome.Success? ==>
      var cutoff := Timestamps.ConvertToTimestamp(offset, now).value;
      && (forall e | e in r.tables.sendgridEvent :: e.timestamp >= cutoff)
      && (forall m | m in r.tables.mailLog :: m.sentTime >= cutoff)
      && (forall e | e in db.sendgridEvent && e.timestamp >= cutoff :: e in r.tables.sendgridEvent)
      && (forall m | m in db.mailLog && m.sentTime >= cutoff :: m in r.tables.mailLog)
      && r.outcome == Success(|EventsBefore(db.sendgridEvent, cutoff)|, |MailBefore(db.mailLog, cutoff)|, "")
  {
    var r := HandleRequest(offset, now, db, failAt);
    if r.outcome.Success? {
      var cutoff := Timestamps.ConvertToTimestamp(offset, now).value;
      assert r.tables == Tables(MailFrom(db.mailLog, cutoff), EventsFrom(db.sendgridEvent, cutoff));
      EventsSplitAtCutoff(db.sendgridEvent, cutoff);
      MailSplitAtCutoff(db.mailLog, cutoff);
    }
  }
}

=== FILE: seqs.dfy ===
/** Order-preserving filtering and flattening of sequences. */
module Seqs {

  /** The elements of `s` that satisfy `keep`, in their original order (a SQL `WHERE`). */
  function Filter<T(!new)>(s: seq<T>, keep: T -> bool): (r: seq<T>)
    ensures |r| <= |s|
    ensures forall x :: x in r <==> x in s && keep(x)
  {
    if |s| == 0 then []
    else (if keep(s[0]) then [s[0]] else []) + Filter(s[1..], keep)
  }

  /** Filtering by a predicate and by its complement `drop` splits the sequence in two. */
  lemma {:induction false} FilterPartition<T(!new)>(s: seq<T>, keep: T -> bool, drop: T -> bool)
    requires forall x :: drop(x) == !keep(x)
    ensures |Filter(s, keep)| + |Filter(s, drop)| == |s|
  {
    if |s| > 0 {
      FilterPartition(s[1..], keep, drop);
    }
  }

  /** A filter that every element passes leaves the sequence as it was. */
  lemma {:induction false} FilterAll<T(!new)>(s: seq<T>, keep: T -> bool)
    requires forall i | 0 <= i < |s| :: keep(s[i])
    ensures Filter(s, keep) == s
  {
    if |s| > 0 {
      FilterAll(s[1..], keep);
    }
  }

  /** Concatenation of a sequence of strings (or any sequences). */
  function Concat<T>(parts: seq<seq<T>>): seq<T>
  {
    if |parts| == 0 then [] else parts[0] + Concat(parts[1..])
  }

  lemma {:induction false} ConcatAppend<T>(a: seq<seq<T>>, b: seq<seq<T>>)
    ensures Concat(a + b) == Concat(a) + Concat(b)
  {
    if |a| == 0 {
      assert a + b == b;
    } else {
      assert (a + b)[1..] == a[1..] + b;
      ConcatAppend(a[1..], b);
    }
  }
}

=== FILE: text.dfy ===
/**
 * Java's `String.join` and its inverse, splitting on a one-character
 * delimiter. The archive is plain text with `,` between fields and no
 * quoting, so these two functions are all a reader of the file has.
 */
module Text {

  /** `String.join(sep, fields)`: the fields with `sep` between neighbours; "" for no fields. */
  function Join(fields: seq<string>, sep: string): string
  {
    if |fields| == 0 then ""
    else if |fields| == 1 then fields[0]
    else fields[0] + sep + Join(fields[1..], sep)
  }

  predicate StartsWith(s: string, prefix: string)
  {
    |prefix| <= |s| && s[..|prefix|] == prefix
  }

  /** No field contains the character `c`. */
  predicate Free(fields: seq<string>, c: char)
  {
    forall i | 0 <= i < |fields| :: c !in fields[i]
  }

  /**
   * The pieces of `s` between occurrences of `c`, keeping empty pieces
   * (a reader that does not know about quoting).
   */
  function Split(s: string, c: char): (r: seq<string>)
    ensures |r| >= 1
    ensures Free(r, c)
  {
    if |s| == 0 then [""]
    else
      var rest := Split(s[1..], c);
      if s[0] == c then [""] + rest
      else [[s[0]] + rest[0]] + rest[1..]
  }

  /** Joining two non-empty field lists is joining each and putting the separator between. */
  lemma {:induction false} JoinAppend(a: seq<string>, b: seq<string>, sep: string)
    requires |a| > 0 && |b| > 0
    ensures Join(a + b, sep) == Join(a, sep) + sep + Join(b, sep)
  {
    if |a| == 1 {
      assert a + b == [a[0]] + b;
      assert (a + b)[1..] == b;
    } else {
      assert (a + b)[1..] == a[1..] + b;
      JoinAppend(a[1..], b, sep);
    }
  }

  /** A prefix without the delimiter stays glued to the first piece. */
  lemma {:induction false} SplitPrefix(a: string, t: string, c: char)
    requires c !in a
    ensures Split(a + t, c) == [a + Split(t, c)[0]] + Split(t, c)[1..]
  {
    if |a| > 0 {
      assert (a + t)[0] == a[0];
      assert (a + t)[1..] == a[1..] + t;
      SplitPrefix(a[1..], t, c);
      assert [a[0]] + (a[1..] + Split(t, c)[0]) == a + Split(t, c)[0];
    } else {
      assert a + t == t;
      assert a + Split(t, c)[0] == Split(t, c)[0];
      assert Split(t, c) == [Split(t, c)[0]] + Split(t, c)[1..];
    }
  }

  /** Splitting undoes joining, provided no field contains the delimiter. */
  lemma {:induction false} SplitJoin(fields: seq<string>, c: char)
    requires |fields| >= 1
    requires Free(fields, c)
    ensures Split(Join(fields, [c]), c) == fields
  {
    if |fields| == 1 {
      SplitPrefix(fields[0], "", c);
      assert fields[0] + "" == fields[0];
    } else {
      var tail := Join(fields[1..], [c]);
      assert Join(fields, [c]) == fields[0] + ([c] + tail);
      SplitPrefix(fields[0], [c] + tail, c);
      assert ([c] + tail)[1..] == tail;
      SplitJoin(fields[1..], c);
      assert Split([c] + tail, c) == [""] + fields[1..];
      assert fields[0] + "" == fields[0];
    }
  }

  /** Joining undoes splitting, for every text. */
  lemma {:induction false} JoinSplit(s: string, c: char)
    ensures Join(Split(s, c), [c]) == s
  {
    if |s| > 0 {
      var rest := Split(s[1..], c);
      JoinSplit(s[1..], c);
      if s[0] == c {
        assert Join([""] + rest, [c]) == "" + [c] + Join(rest, [c]);
      } else {
        var r := [[s[0]] + rest[0]] + rest[1..];
        if |rest| == 1 {
          assert Join(r, [c]) == [s[0]] + rest[0];
        } else {
          assert r[1..] == rest[1..];
          assert Join(rest, [c]) == rest[0] + [c] + Join(rest[1..], [c]);
        }
      }
    }
  }

  /** A field that contains the delimiter makes the joined text unreadable: splitting it cannot give the fields back. */
  lemma {:induction false} DelimiterInFieldBreaksSplit(fields: seq<string>, c: char, i: nat)
    requires i < |fields| && c in fields[i]
    ensures Split(Join(fields, [c]), c) != fields
  {
  }
}

=== FILE: timestamps.dfy ===
/**
 * `convertToTimestamp`, shared by both handlers: the midnight of the day
 * that lies `offset` days before now. Time is whole seconds in one fixed
 * zone with 86400-second days; the calendar round trip through
 * "yyyy-MM-dd" is the truncation to the start of the day.
 */
module Timestamps {
  import opened Wrappers
  import JavaInt

  const SecondsPerDay: int := 86400

  /** The midnight that starts the day containing `t` (flooring, also before the epoch). */
  function StartOfDay(t: int): (r: int)
    ensures r % SecondsPerDay == 0
    ensures r <= t < r + SecondsPerDay
  {
    (t / SecondsPerDay) * SecondsPerDay
  }

  /** Java's `-x` on an `int`: negating `Integer.MIN_VALUE` wraps back to itself. */
  function NegateInt32(x: int): (r: int)
    requires JavaInt.IsInt32(x)
    ensures JavaInt.IsInt32(r)
    ensures x != JavaInt.MinInt ==> r + x == 0
    ensures x == JavaInt.MinInt ==> r == x
  {
    if x == JavaInt.MinInt then x else -x
  }

  /**
   * `convertToTimestamp(offset)` evaluated at the instant `now`. `None` is the
   * NumberFormatException of `Integer.parseInt`.
   */
  function ConvertToTimestamp(offset: Option<string>, now: int): (r: Option<int>)
    ensures r.Some? <==> JavaInt.ParseInt(offset).Some?
    ensures r.Some? ==> r.value % SecondsPerDay == 0
    ensures r.Some? && JavaInt.ParseInt(offset).value != JavaInt.MinInt ==>
              var target := now - JavaInt.ParseInt(offset).value * SecondsPerDay;
              r.value <= target < r.value + SecondsPerDay
    ensures r.Some? ==>
              var target := now + NegateInt32(JavaInt.ParseInt(offset).value) * SecondsPerDay;
              r.value <= target < r.value + SecondsPerDay
  {
    match JavaInt.ParseInt(offset)
    case None => None
    case Some(days) => Some(StartOfDay(now + NegateInt32(days) * SecondsPerDay))
  }

  /** Two day boundaries that both start the day containing `t` are the same boundary. */
  lemma {:induction false} DayBoundaryUnique(a: int, b: int, t: int)
    requires a % SecondsPerDay == 0 && b % SecondsPerDay == 0
    requires a <= t < a + SecondsPerDay && b <= t < b + SecondsPerDay
    ensures a == b
  {
    var qa, qb := a / SecondsPerDay, b / SecondsPerDay;
    assert a == qa * SecondsPerDay;
    assert b == qb * SecondsPerDay;
    assert (qa - qb) * SecondsPerDay == a - b;
  }

  /** StartOfDay(t) is the latest day boundary not after `t`. */
  lemma {:induction false} StartOfDayIsLatestMidnight(t: int, m: int)
    requires m % SecondsPerDay == 0 && m <= t
    ensures m <= StartOfDay(t)
  {
    assert m == (m / SecondsPerDay) * SecondsPerDay;
    assert t == (t / SecondsPerDay) * SecondsPerDay + t % SecondsPerDay;
  }

  /** Shifting by whole days shifts the start of the day by the same amount. */
  lemma {:induction false} StartOfDayShift(t: int, days: int)
    ensures StartOfDay(t + days * SecondsPerDay) == StartOfDay(t) + days * SecondsPerDay
  {
    var s := StartOfDay(t) + days * SecondsPerDay;
    assert s == (t / SecondsPerDay + days) * SecondsPerDay;
    DayBoundaryUnique(StartOfDay(t + days * SecondsPerDay), s, t + days * SecondsPerDay);
  }

  /** Runs within the same calendar day compute the same cutoff. */
  lemma {:induction false} SameDaySameCutoff(offset: Option<string>, now1: int, now2: int)
    requires StartOfDay(now1) == StartOfDay(now2)
    ensures ConvertToTimestamp(offset, now1) == ConvertToTimestamp(offset, now2)
  {
    if JavaInt.ParseInt(offset).Some? {
      var shift := NegateInt32(JavaInt.ParseInt(offset).value);
      StartOfDayShift(now1, shift);
      StartOfDayShift(now2, shift);
    }
  }

  /** A later run never moves the cutoff back. */
  lemma {:induction false} CutoffMonotonic(offset: Option<string>, now1: int, now2: int)
    requires now1 <= now2
    requires JavaInt.ParseInt(offset).Some?
    ensures ConvertToTimestamp(offset, now1).value <= ConvertToTimestamp(offset, now2).value
  {
    var shift := NegateInt32(JavaInt.ParseInt(offset).value);
    StartOfDayIsLatestMidnight(now2 + shift * SecondsPerDay, StartOfDay(now1 + shift * SecondsPerDay));
  }
}

=== FILE: wrappers.dfy ===
/** Failure-compatible wrappers used across the model. */
module Wrappers {

  /** A value that may be absent; `None` stands for Java's `null`. */
  datatype Option<+T> = None | Some(value: T)

  /** The result of a step that may throw; the error carries the state reached before the throw. */
  datatype Result<+T, +E> = Ok(value: T) | Err(error: E) {

    predicate IsFailure() {
      Err?
    }

    function PropagateFailure<U>(): Result<U, E>
      requires Err?
    {
      Err(error)
    }

    function Extract(): T
      requires Ok?
    {
      value
    }
  }
}
